=== FILE: README.md ===
# Spy: a Dafny model of the interception engine

This project models `Spy`, a small Ruby test-double library. A spy replaces one
method of one object with a recorder. The recorder checks the number of arguments
against the original method's parameter list, logs the call, and answers from a
plan: a constant, a block, or the original method. `unhook` removes the recorder.
It puts back a public or protected singleton method that `hook` removed, but with a
visibility read from the class. Any other singleton method the recorder overwrote
is lost (see Findings). A method the object has only from its class comes back
exactly as it was. The class side keeps every live spy in a registry (`Spy.all`). Through
that registry, `on`, `stub`, `off`, `teardown` and `reset` work on many spies at once.

The model is written as pure functions over immutable values:

- `values.dfy` holds the shared vocabulary. Method names are Symbols or Strings. There are visibilities, parameter kinds, method implementations, and the errors the library raises. `Result` stands for a value or a raise.
- `arity.dfy` models `arity_range` and `check_arity!`.
- `objects.dfy` models an object as two method tables: its class (ancestors folded in) and its singleton class. It also covers the reflection calls the spy makes on them: `method`, `respond_to?`, `*_method_defined?`, `singleton_methods`, `define_singleton_method`, `remove_method`, and `public`/`protected`/`private`.
- `spies.dfy` covers one spy: `hook`, `unhook`, `and_return`, `and_call_through`, `has_been_called?`, `has_been_called_with?`, `record`, `reset!`, `clear_method!` and `method_visibility`.
- `spy_lemmas.dfy` holds properties over several calls on one spy: the invariant every operation keeps, the hook/unhook round trip, the call log and the plans.
- `registry.dfy` covers the class methods. The process state is one `World`: the target objects, every spy built so far (indexed by id), and `Spy.all`.
- `registry_lemmas.dfy` holds facade properties. `on` then `off` restores the target. `stub` hooks a method `on` refuses. It also holds the visibility of spies created from a Hash argument.

Where the code raises part-way through a class method, the model returns the
world as the raise left it. Spies that were already hooked stay hooked and
registered, as they do in Ruby.

Three behaviours of the code may surprise a user of the library. The model follows the code in each:

- `reset!` keeps the plan and the memoised visibility, so a reset spy still answers from its old plan.
- Nothing stops two spies from hooking the same method of the same object.
- `teardown` stops at the first `unhook` that raises and leaves the registry as it was, so the registry need not end empty.

## Model

| member | source | states |
|---|---|---|
| Arity.CheckArity | lib/spy.rb:107-114 | A call passes exactly when no original was captured or the count lies in `min..max`. A count below the minimum is reported against the minimum, before the maximum is considered. A count above a finite maximum is reported against that maximum. |
| Arity.FoldCounts | lib/spy.rb:116-133 | The parameter loop, from any starting range. It adds one to both ends per required parameter and one to the maximum per optional parameter. Any rest parameter, wherever it appears, makes the maximum unbounded. Other kinds are ignored. |
| Arity.RangeOfCounts | lib/spy.rb:116-133 | `arity_range` in closed form: `min` is the number of required parameters. `max` is required plus optional, or unbounded with a rest parameter. |
| Arity.RangeOfNonEmpty | lib/spy.rb:116-133 | A derived range is never empty: its minimum is admitted. |
| Arity.CheckArityByShape | lib/spy.rb:107-133 | Against a captured original, `n` arguments pass iff `n` is at least the number of required parameters and, without a rest parameter, at most required plus optional. |
| Arity.RequiredAndOptionalExample | lib/spy.rb:107-133 | For `def m(a, b = 1)`: 1 and 2 arguments pass; 0 is refused against minimum 1 and 3 against maximum 2. |
| Objects.Lookup | lib/spy.rb:18 | `Object#method` finds the singleton method before the class's, and nothing only when neither table has the name. |
| Objects.DefineSingleton | lib/spy.rb:26-28 | `define_singleton_method` installs a public singleton entry for the name and leaves every other entry and the class alone. |
| Objects.RemoveSingleton | lib/spy.rb:21 | `remove_method` on the singleton class raises NameError exactly when it has no such method; otherwise it drops that entry only. |
| Objects.Export | lib/spy.rb:31 | Setting a visibility raises NameError exactly when lookup finds nothing. Afterwards lookup finds the same implementation with the new visibility. Other singleton entries are unchanged. A class-only method that already has that visibility leaves the object as it was. |
| Spies.NewSpy | lib/spy.rb:9-12 | A new spy is unhooked, with an empty log, no plan, no original and nothing memoised. |
| Spies.ClearMethod | lib/spy.rb:89-92 | Clears hooked, original and removed-singleton, keeps log and plan, and keeps the memoised visibility because the instance variable cleared is misspelt. |
| Spies.Observed | lib/spy.rb:94-105 | Any visibility reported is the class's declared one. An answer is given iff the class has the method and the object responds exactly when that declaration is not private. So a responding method reports the class's public or protected declaration, a non-responding one the class's private one, and nil otherwise. |
| Spies.Hook | lib/spy.rb:14-34 | Raises iff already hooked, or the capture branch finds no method. In the capture branch the original is what lookup found and a listed singleton method is removed. The recorder becomes the singleton method and nothing else in the tables changes. The memoised visibility afterwards is the one `method_visibility` found before the recorder went in. If that was nil and no visibility was requested, it is recomputed with the public recorder in place: the class's declaration unless that is private, else nil. The `opts` hash gets `force` and the requested visibility, or else that memo, written back, and that visibility (or public) is the recorder's. |
| Spies.Unhook | lib/spy.rb:36-43 | Raises NotHooked iff not hooked, and NameError when the singleton method is already gone. Afterwards the spy is unhooked with no original, but keeps its log, plan and any memoised visibility. With nothing memoised, the memo is recomputed at line 40: after putting back a removed (now public) singleton method it is the class's declaration unless private; with no singleton method left it is the class's declaration unless protected; else nil. A removed singleton method is put back with the memoised (or public) visibility. Otherwise, whatever singleton entry remains is the class's implementation. The class and all other entries are unchanged. |
| Spies.AndReturn | lib/spy.rb:49-57 | Raises iff a block comes with a non-nil value. Otherwise the plan becomes the block, or the constant, and nothing else changes. |
| Spies.AndCallThrough | lib/spy.rb:59-62 | Raises iff no original was captured; otherwise the plan calls the original. |
| Spies.HasBeenCalled | lib/spy.rb:64-66 | True iff the log is non-empty. |
| Spies.CalledWith | lib/spy.rb:68-72 | The scan answers true iff some logged call had exactly these arguments. |
| Spies.HasBeenCalledWith | lib/spy.rb:68-72 | True iff some logged call had exactly these arguments. |
| Spies.Record | lib/spy.rb:74-78 | Raises an arity error iff the count is outside the captured original's range. Otherwise it appends exactly one log entry and answers according to the plan: nil with no plan, the constant, or what the block or the original returns. |
| Spies.Reset | lib/spy.rb:80-84 | Empties the log and unhooks the spy's state, keeping plan and memoised visibility. |
| SpyLemmas.NewSpyCoherent | lib/spy.rb:9-12 | A new spy satisfies the invariant `Coherent`. |
| SpyLemmas.HookKeepsCoherent | lib/spy.rb:14-34 | `hook` keeps `Coherent`. |
| SpyLemmas.UnhookKeepsCoherent | lib/spy.rb:36-43 | Under `Coherent`, `unhook` of a hooked spy whose recorder is still in place succeeds and keeps `Coherent`. |
| SpyLemmas.PlanAndRecordKeepCoherent | lib/spy.rb:49-84 | `and_return`, `and_call_through`, `record` and `reset!` keep `Coherent`. |
| SpyLemmas.RoundTripWithoutOverride | lib/spy.rb:14-43 | With no singleton method of that name, `hook` then `unhook` gives back exactly the original object and keeps the log. |
| SpyLemmas.RoundTripRestoresOverride | lib/spy.rb:14-43 | A public or protected singleton override captured by `hook` is put back by `unhook` with its own implementation, and every other entry is unchanged. Its visibility becomes `RestoredVisibility`: the memoised or observed visibility, else the class's protected declaration, else public. So the object comes back as it was iff that is the override's own visibility. |
| SpyLemmas.RoundTripChangesOverrideVisibility | lib/spy.rb:36-43 | A protected singleton `greet` with no class method comes back public. A public singleton `greet` over a protected class method comes back protected, and its recorder is protected while hooked. |
| SpyLemmas.RoundTripLosesUnlistedOverride | lib/spy.rb:19-21 | A singleton override not listed by `singleton_methods` (private, or named by a String) is overwritten by the recorder. After `unhook` it is gone, and lookup reaches the class's method. |
| SpyLemmas.StringNameLosesOverride | lib/spy.rb:19 | The same public singleton method survives a round trip under a Symbol name and is lost under a String name. The corrected pair gives the object back under the String name too. |
| SpyLemmas.ForcedHookLosesOverride | lib/spy.rb:16-23 | A forced hook on a public singleton method the class lacks captures nothing, so `unhook` loses that method. The corrected pair gives the object back. |
| Spies.HookSaving | lib/spy.rb:14-34 | The corrected `hook`. It fails exactly when `hook` does and installs the same recorder with nothing else changed. It keeps the displaced singleton method, whole, exactly when the object had one of that name. |
| Spies.UnhookRestoring | lib/spy.rb:36-43 | The corrected `unhook`. It fails when not hooked or when the recorder is gone. Otherwise the spy is unhooked with its log and plan, the class and all other entries are unchanged, and a displaced singleton method is back exactly. |
| SpyLemmas.RoundTripRestoresEverything | lib/spy.rb:14-43 | Under `Coherent`, the corrected hook then unhook gives back exactly the original object, whatever singleton method it had and whatever the options, and the spy keeps its log. |
| SpyLemmas.RecordedCallIsVisible | lib/spy.rb:64-78 | After a recorded call, `has_been_called?` and `has_been_called_with?(args)` hold and the log grew by one. |
| SpyLemmas.RecordAllLogsInOrder | lib/spy.rb:74-78 | N calls, all on one receiver and without a block, that pass the arity check leave N new entries in call order after the old ones, each found by `has_been_called_with?`. |
| SpyLemmas.ConstantPlanIgnoresArguments | lib/spy.rb:54 | After `and_return(v)`, every admitted call answers `v`. |
| SpyLemmas.LastPlanWins | lib/spy.rb:49-57 | A second `and_return` replaces the first plan and fails exactly when it would on its own. |
| SpyLemmas.CallThroughFollowsCapture | lib/spy.rb:17-18 | After a capturing `hook`, `and_call_through` succeeds and calls answer with the method lookup found. |
| SpyLemmas.ResetForgetsCalls | lib/spy.rb:80-84 | After `reset!` no call is reported and the spy is unhooked, while the plan stays. |
| SpyLemmas.FreshHookTakesClassVisibility | lib/spy.rb:17-31 | A spy with nothing memoised, hooking a class-only method with no visibility requested (forced or not), gives the recorder the class's visibility and writes it back into `opts`. |
| Registry.Collapse | lib/spy.rb:141 | A single spy is returned by itself, any other number as the list, with none lost or reordered. |
| Registry.HookName | lib/spy.rb:194-197 | A raised `hook` registers nothing and leaves the objects alone. Otherwise exactly one new hooked spy with an empty log is registered, the target is exactly what `hook` of that new spy made of it, every other object is unchanged, and the rewritten `opts` are `hook`'s. |
| Registry.SetConstant | lib/spy.rb:200 | `.and_return(result)` on the new spy sets its constant plan and changes nothing else. |
| Registry.HookEntries | lib/spy.rb:198-201 | A Hash argument registers one spy per key, in order, each with its value as constant plan; it succeeds only if every key is a name. Objects other than the target are unchanged, whether it succeeds or raises. |
| Registry.CreateAndHook | lib/spy.rb:192-205 | A name argument registers the spies it is meant to, and succeeds only for a name or a Hash whose every key is a name. An argument of another class raises without changing anything. Objects other than the target are unchanged. |
| Registry.HookEach | lib/spy.rb:136-139 | Success registers the spies of all arguments in order and implies every argument was a name or a Hash of names. Objects other than the target are unchanged. |
| Registry.On | lib/spy.rb:136-142 | On success the registry grew by exactly the intended hooked spies (Hash keys with their constant plans), which are what is returned. An invalid argument, or a Hash key that is not a name, makes it raise. Objects other than the target are unchanged. |
| Registry.Stub | lib/spy.rb:144-150 | As `On`, with every hook forced (the corrected version, with fresh options for each key of a Hash argument). |
| Registry.OnAsWritten | lib/spy.rb:136-142 | As `On`, with the options hash shared across the keys of a Hash argument as the code does. |
| Registry.StubAsWritten | lib/spy.rb:144-150 | As `Stub`, with one `{force: true}` hash shared across the keys of a Hash argument as the code does. |
| Registry.UnhookSpy | lib/spy.rb:211 | `spy.unhook` fails exactly when `unhook` does. Otherwise the spy becomes what `unhook` made of it, its target becomes what `unhook` made of it, and every other spy and object is unchanged. |
| Registry.Sweep | lib/spy.rb:207-215 | The `delete_if` loop unhooks and returns the matching spies in order. It keeps the others in order, touches no spy outside the array, and leaves every object other than the target unchanged. |
| Registry.SweepEach | lib/spy.rb:153-155 | Afterwards the registry is the unnamed spies in their old order. Exactly the named ones are returned, all unhooked, no unregistered spy changed, and no object other than the target changed. |
| Registry.Off | lib/spy.rb:152-158 | The same for `off`'s return value: the spies removed are exactly the registered ones named for this object. Objects other than the target are unchanged. |
| Registry.UnhookEach | lib/spy.rb:165 | On success every registered spy had been hooked and is now unhooked, and no other spy changed. Success or not, an object no visited spy targets is unchanged. |
| Registry.ResetAll | lib/spy.rb:169-171 | The registry becomes empty; spies and objects are untouched. |
| RegistryLemmas.ResetForgetsWithoutUnhooking | lib/spy.rb:164-171 | `reset` forgets the registered spies without unhooking any of them: every spy is as it was, and a following `teardown` succeeds and changes nothing. |
| Registry.Teardown | lib/spy.rb:164-167 | On success the registry is empty and every spy it held is unhooked. After a raise the registry is unchanged. Either way, an object no registered spy targets is unchanged. |
| Registry.UnnamedSplit | lib/spy.rb:153-155 | Removing the spies of the first name and then those of the rest is removing those of all names, in order. |
| RegistryLemmas.OnThenOffRestores | lib/spy.rb:136-158 | `Spy.on(o, name)` then `Spy.off(o, name)`, for a method of the class with no singleton override and no earlier spy on it: `on` succeeds; `off` returns the spy `on` returned, and the objects and the registry are as before. |
| RegistryLemmas.OnThenTeardownRestores | lib/spy.rb:164-171 | `Spy.on(o, name)` on an empty registry, for a class method with no singleton override, then `Spy.teardown`: teardown succeeds, the registry is empty and the objects are as before. |
| RegistryLemmas.StubHooksMissingMethod | lib/spy.rb:144-150 | For a method an ordinary object lacks, `on` raises NameError and registers nothing. `stub` installs a recorder with no original. |
| RegistryLemmas.HashKeepsEachVisibility | lib/spy.rb:198-201 | With fresh options per key, every recorder a Hash argument to `on` or `stub` installs has the visibility of the method it replaces. |
| RegistryLemmas.FreshHashKeepsEachVisibility | lib/spy.rb:198-201 | The same for one Hash argument hooked with fresh options per key, forced or not. |
| RegistryLemmas.FreshEntriesTakeClassVisibility | lib/spy.rb:198-201 | Keys hooked one after another, each from fresh options (forced or not), each get their own class method's visibility, and every older singleton entry stays. |
| RegistryLemmas.SharedEntriesTakeGivenVisibility | lib/spy.rb:198-201 | Keys hooked through one shared options hash that already names a visibility all get that visibility, whatever their own methods' visibility, and every older singleton entry stays. |
| RegistryLemmas.SharedHashTakesFirstVisibility | lib/spy.rb:198-201 | One Hash argument hooked through one shared options hash, forced or not: every recorder has the visibility of the first key's method, because `hook` stores it in that hash at line 30. |
| RegistryLemmas.AsWrittenHashTakesFirstVisibility | lib/spy.rb:198-201 | As written, every recorder a Hash argument to `on` or `stub` installs has the visibility of the first key's method. |
| RegistryLemmas.SharedOptionsLeakVisibility | lib/spy.rb:198-201 | As written (one `opts` hash, which `hook` rewrites at line 30), `on(o, secret: 1, greet: 2)` and `stub(o, secret: 1, greet: 2)` with `secret` private make the public `greet`'s recorder private. |
| RegistryLemmas.FreshOptionsKeepVisibility | lib/spy.rb:198-201 | The same calls with fresh options leave `greet`'s recorder public. |

## Left out

- `Spy.find`, `Spy.double`, `Double` and the DSL are not part of this model.
- Ruby reflection is replaced by the two method tables. An object's class table includes its ancestors and never changes. `respond_to_missing?`, `method_missing` and refinements are not modelled.
- Objects.Export: when `private`/`protected` is applied to a class-only method, Ruby adds a "zsuper" entry to the singleton class. The model adds a copy of the class's entry instead. The two dispatch the same way because class tables never change here.
- The memo `@arity_range` is not kept. `check_arity!` computes it on the first `record` from the original `hook` captured (lines 108 and 117), and `clear_method!` clears it together with the original (line 91). So whenever it is set it is the range of the current original, which the model recomputes on each `record`.
- Plans and the blocks they call are opaque. Their answers come from an `Invoker` parameter, and their side effects are not modelled.
- `and_call_through` returns the plan, not the spy. Only the new plan is modelled.
- `reset!` always returns `true`; the model returns the new spy.
- Spies.Unhook: the two raises that the invariant `Coherent` rules out are returned with the state unchanged. These are redefining a removed singleton method from a missing original, and setting the visibility of a vanished method. Ruby would already have removed the recorder at that point.
- Registry: a Hash nested as a key of a Hash argument is not modelled. Ruby hooks its keys and then raises calling `and_return` on the resulting array. Every other non-name key is the invalid-class error.
- Registry: `on`, `stub`, `off` and `teardown` go through `Spies.Hook` and `Spies.Unhook` as the code writes them. The corrected pair `Spies.HookSaving`/`Spies.UnhookRestoring` is modelled for one spy only, because the spy record has no field for the displaced singleton method.
- Registry: `unhook_and_remove_spy` compares targets with `==` (line 210), which a class may redefine, so `Spy.off(copy, :m)` with `copy == original` unhooks the spy on `original` in Ruby. The model compares object identities (`ObjId`), because it has no user-defined equality.
- Spies.Record: a plan that raises after line 76 has logged the call cannot be expressed, because the `Invoker` parameter always answers a value. The model's `record` therefore never fails after logging.
- Registry: `Spy.all` is created lazily, so `nil` and `[]` are one state here.
- The exact error message strings are not modelled; each raise is an `Error` constructor naming its cause.
- Threading is not modelled: the library takes no locks, and the model is sequential.
- Registry.Teardown: teardown is proved to restore the target only for a single spy. In general the model proves that every registered spy ends unhooked and the registry empty. When two spies hook the same method of one object, unhooking them in registry order need not restore it.

## Findings

| source | as written | input that shows it | evidently intended | confidence | as-written member | corrected member |
|---|---|---|---|---|---|---|
| lib/spy.rb:198-201 | Every key of a Hash argument is hooked with the same `opts` hash. `hook` writes the first key's visibility into it (`opts[:visibility] ||= method_visibility`), and later keys reuse it. | `Spy.on(o, secret: 1, greet: 2)` or `Spy.stub(o, secret: 1, greet: 2)`, where `secret` is private and `greet` public: the recorder for `greet` becomes private. | Each key is hooked with the caller's options, so each recorder keeps its own method's visibility. | not executed | RegistryLemmas.AsWrittenHashTakesFirstVisibility and RegistryLemmas.SharedOptionsLeakVisibility (on Registry.OnAsWritten and Registry.StubAsWritten) | RegistryLemmas.HashKeepsEachVisibility and RegistryLemmas.FreshOptionsKeepVisibility (on Registry.On and Registry.Stub) |
| lib/spy.rb:17-23 | `hook` removes and remembers a singleton method only in the capture branch, and only when `singleton_methods` lists the name. That list holds no private methods and, compared with `include?`, never matches a String name. Any other singleton method is overwritten by the recorder, and `unhook` cannot put it back. | A public singleton `greet` hooked as `"greet"`, or forced (as `stub` forces) when the class has no `greet`; a private singleton `greet`. After `unhook` the object has no singleton `greet`. | Every singleton method the recorder displaces comes back on `unhook`. | not executed | SpyLemmas.RoundTripLosesUnlistedOverride, SpyLemmas.StringNameLosesOverride and SpyLemmas.ForcedHookLosesOverride (on Spies.Hook and Spies.Unhook) | SpyLemmas.RoundTripRestoresEverything (on Spies.HookSaving and Spies.UnhookRestoring) |
| lib/spy.rb:39-40 | `unhook` re-defines the removed singleton method, which makes it public, then applies `method_visibility`, which is read from the class. The singleton method's own visibility is never recorded. | A protected singleton `greet` with no class `greet` comes back public; a public singleton `greet` over a protected class `greet` comes back protected. | The singleton method comes back with its own visibility. | not executed | SpyLemmas.RoundTripRestoresOverride and SpyLemmas.RoundTripChangesOverrideVisibility (on Spies.Hook and Spies.Unhook) | SpyLemmas.RoundTripRestoresEverything (on Spies.HookSaving and Spies.UnhookRestoring) |

=== FILE: arity.dfy ===
/** The arity range a spy derives from the original method's parameter list
    (`Spy#arity_range`) and the check every recorded call goes through
    (`Spy#check_arity!`). */
module Arity {
  import opened Values

  /** The upper end of a range; `Unbounded` stands for `Float::INFINITY`. */
  datatype Bound = Finite(n: nat) | Unbounded

  /** `(min..max)` */
  datatype Range = Range(min: nat, max: Bound)

  function Inc(b: Bound): Bound
  {
    match b
    case Finite(n) => Finite(n + 1)
    case Unbounded => Unbounded  // Float::INFINITY + 1
  }

  /** One iteration of the `parameters.each` loop. */
  function Step(r: Range, kind: ParamKind): Range
  {
    match kind
    case Req => Range(r.min + 1, Inc(r.max))
    case Opt => Range(r.min, Inc(r.max))
    case Rest => Range(r.min, Unbounded)
    case _ => r
  }

  /** The loop itself, left to right from the accumulator `r`. */
  function Fold(r: Range, params: seq<ParamKind>): Range
    decreases |params|
  {
    if params == [] then r else Fold(Step(r, params[0]), params[1..])
  }

  /** The range of a parameter list, starting from `min = max = 0`. */
  function RangeOf(params: seq<ParamKind>): Range
  {
    Fold(Range(0, Finite(0)), params)
  }

  /** `arity_range`: no range at all when no original method was captured. */
  function ArityOf(original: Option<Impl>): Option<Range>
  {
    match original
    case None => None
    case Some(impl) => Some(RangeOf(impl.params))
  }

  /** `min <= n <= max`. */
  predicate Admits(r: Range, n: nat)
  {
    r.min <= n && (r.max.Finite? ==> n <= r.max.n)
  }

  /** `check_arity!`: the minimum is checked first, so a count below it is always
      reported against the minimum. */
  function CheckArity(range: Option<Range>, given: nat): (r: Result<()>)
    ensures r.Success? <==> (range.None? || Admits(range.value, given))
    ensures r.Failure? ==> range.Some?
    ensures r.Failure? && given < range.value.min ==> r.error == TooFewArguments(given, range.value.min)
    ensures r.Failure? && given >= range.value.min ==>
              range.value.max.Finite? && r.error == TooManyArguments(given, range.value.max.n)
  {
    match range
    case None => Success(())
    case Some(Range(min, max)) =>
      if given < min then Failure(TooFewArguments(given, min))
      else if max.Finite? && given > max.n then Failure(TooManyArguments(given, max.n))
      else Success(())
  }

  /** Number of parameters of one kind. */
  function Count(params: seq<ParamKind>, kind: ParamKind): nat
  {
    if params == [] then 0
    else (if params[0] == kind then 1 else 0) + Count(params[1..], kind)
  }

  /** The range as a closed formula over the whole list: every `req` counts towards
      both ends, every `opt` towards the maximum only, and one `rest` anywhere makes the
      maximum unbounded whatever follows it. */
  lemma {:induction false} FoldCounts(r: Range, params: seq<ParamKind>)
    ensures Fold(r, params).min == r.min + Count(params, Req)
    ensures Fold(r, params).max ==
              if r.max.Unbounded? || Rest in params then Unbounded
              else Finite(r.max.n + Count(params, Req) + Count(params, Opt))
    decreases |params|
  {
    if params != [] {
      FoldCounts(Step(r, params[0]), params[1..]);
      assert params == [params[0]] + params[1..];
      assert Rest in params <==> params[0] == Rest || Rest in params[1..];
    }
  }

  /** `arity_range` for a parameter list, stated without the loop. */
  lemma RangeOfCounts(params: seq<ParamKind>)
    ensures RangeOf(params).min == Count(params, Req)
    ensures RangeOf(params).max ==
              if Rest in params then Unbounded
              else Finite(Count(params, Req) + Count(params, Opt))
  {
    FoldCounts(Range(0, Finite(0)), params);
  }

  /** A derived range is never empty: `min <= max`. */
  lemma RangeOfNonEmpty(params: seq<ParamKind>)
    ensures Admits(RangeOf(params), RangeOf(params).min)
  {
    RangeOfCounts(params);
  }

  /** Whether a call with `given` arguments passes `check_arity!` against an original
      with this parameter list, in terms of the list alone. */
  lemma CheckArityByShape(params: seq<ParamKind>, given: nat)
    ensures CheckArity(Some(RangeOf(params)), given).Success? <==>
              Count(params, Req) <= given &&
              (Rest in params || given <= Count(params, Req) + Count(params, Opt))
  {
    RangeOfCounts(params);
  }

  /** One required and one optional parameter (`def m(a, b = 1)`): 1 or 2 arguments
      pass, 0 and 3 are refused with the bound they violated. */
  lemma RequiredAndOptionalExample()
    ensures CheckArity(ArityOf(Some(Impl(Native(0), [Req, Opt]))), 0) == Failure(TooFewArguments(0, 1))
    ensures CheckArity(ArityOf(Some(Impl(Native(0), [Req, Opt]))), 1).Success?
    ensures CheckArity(ArityOf(Some(Impl(Native(0), [Req, Opt]))), 2).Success?
    ensures CheckArity(ArityOf(Some(Impl(Native(0), [Req, Opt]))), 3) == Failure(TooManyArguments(3, 2))
  {
    RangeOfCounts([Req, Opt]);
    assert RangeOf([Req, Opt]) == Range(1, Finite(2));
  }
}

=== FILE: objects.dfy ===
/** An abstract Ruby object as the spy sees it: the method table of its class (with
    every ancestor folded in) and the method table of its singleton class. The
    reflection calls the spy makes become operations on these two maps. No operation
    here changes the class table. */
module Objects {
  import opened Values

  datatype Entry = Entry(impl: Impl, visibility: Visibility)

  /** `isDouble` answers `kind_of?(Double)`. */
  datatype Obj = Obj(cls: map<string, Entry>, singleton: map<string, Entry>, isDouble: bool)

  /** Method lookup: the singleton class comes before the class. This is what
      `Object#method` finds, whatever the visibility. */
  function Lookup(o: Obj, id: string): (r: Option<Entry>)
    ensures r.None? <==> id !in o.singleton && id !in o.cls
    ensures id in o.singleton ==> r == Some(o.singleton[id])
    ensures id !in o.singleton && id in o.cls ==> r == Some(o.cls[id])
  {
    if id in o.singleton then Some(o.singleton[id])
    else if id in o.cls then Some(o.cls[id])
    else None
  }

  /** `respond_to?`: only public methods answer true. */
  predicate RespondTo(o: Obj, id: string)
  {
    Lookup(o, id).Some? && Lookup(o, id).value.visibility == Public
  }

  /** `public_method_defined?`, `protected_method_defined?` and
      `private_method_defined?` asked of the object's class. */
  predicate ClassDefines(o: Obj, id: string, v: Visibility)
  {
    id in o.cls && o.cls[id].visibility == v
  }

  /** `singleton_methods.include?(name)`: `singleton_methods` lists the public and
      protected singleton methods as Symbols, so a String name is never included. */
  predicate SingletonListed(o: Obj, name: Name)
  {
    name.Sym? && name.id in o.singleton && o.singleton[name.id].visibility != Private
  }

  /** `define_singleton_method`: the new singleton method is public and replaces any
      singleton method of that name. */
  function DefineSingleton(o: Obj, id: string, impl: Impl): (r: Obj)
    ensures r.cls == o.cls && r.isDouble == o.isDouble
    ensures id in r.singleton && r.singleton[id] == Entry(impl, Public)
    ensures r.singleton - {id} == o.singleton - {id}
  {
    o.(singleton := o.singleton[id := Entry(impl, Public)])
  }

  /** `singleton_class.send(:remove_method, name)`. */
  function RemoveSingleton(o: Obj, name: Name): (r: Result<Obj>)
    ensures r.Failure? <==> name.id !in o.singleton
    ensures r.Failure? ==> r.error == UndefinedMethod(name)
    ensures r.Success? ==> r.value.cls == o.cls && r.value.isDouble == o.isDouble &&
                           r.value.singleton == o.singleton - {name.id}
  {
    if name.id in o.singleton then Success(o.(singleton := o.singleton - {name.id}))
    else Failure(UndefinedMethod(name))
  }

  /** `singleton_class.send(v, name)`. A singleton method has its visibility set. A
      method found only in the class is left alone when it already has visibility `v`;
      otherwise the singleton class gets an entry of its own with visibility `v`
      (Ruby adds a "zsuper" entry; here it is a copy of the class's entry, which
      dispatches the same way because class tables never change). With no method of
      that name at all this is a NameError. */
  function Export(o: Obj, name: Name, v: Visibility): (r: Result<Obj>)
    ensures r.Failure? <==> Lookup(o, name.id).None?
    ensures r.Failure? ==> r.error == UndefinedMethod(name)
    ensures r.Success? ==> r.value.cls == o.cls && r.value.isDouble == o.isDouble
    ensures r.Success? ==> r.value.singleton - {name.id} == o.singleton - {name.id}
    ensures r.Success? ==> Lookup(r.value, name.id) == Some(Entry(Lookup(o, name.id).value.impl, v))
    ensures r.Success? && name.id !in o.singleton && o.cls[name.id].visibility == v ==> r.value == o
  {
    var id := name.id;
    if id in o.singleton then
      Success(o.(singleton := o.singleton[id := Entry(o.singleton[id].impl, v)]))
    else if id in o.cls then
      if o.cls[id].visibility == v then Success(o)
      else Success(o.(singleton := o.singleton[id := Entry(o.cls[id].impl, v)]))
    else Failure(UndefinedMethod(name))
  }
}

=== FILE: registry.dfy ===
/** The class-level side of `Spy`: the registry `Spy.all` and the operations that
    create, hook, register, unhook and drop spies. The whole process state is one
    `World`; an operation that raises part-way returns the world as the raise left
    it, since Ruby does not roll back the spies it already hooked. */
module Registry {
  import opened Values
  import opened Objects
  import opened Spies

  /** Target objects by identity, every spy ever built (a spy's id is its index),
      and `Spy.all` (the lazily created array; nil and `[]` are the same here). */
  datatype World = World(objects: map<ObjId, Obj>, spies: seq<Spy>, all: seq<SpyId>)

  predicate Valid(w: World)
  {
    && (forall i :: 0 <= i < |w.spies| ==> w.spies[i].id == i && w.spies[i].target in w.objects)
    && (forall k :: 0 <= k < |w.all| ==> w.all[k] < |w.spies|)
  }

  /** The world after an operation, and what it returned or raised. */
  datatype Step<+T> = Step(world: World, result: Result<T>)

  /** A key of a Hash name argument: a String or Symbol, or anything else. */
  datatype HashKey = KeyName(name: Name) | KeyOther

  datatype Pair = Pair(key: HashKey, result: Value)

  /** One element of `*method_names`: a String or Symbol, a Hash of names to return
      values (in insertion order), or an object of any other class. */
  datatype NameArg = Ident(name: Name) | Mapping(entries: seq<Pair>) | Invalid

  /** An argument `create_and_hook_spy` accepts: a name, or a Hash whose every key
      is a name. */
  predicate WellFormedArg(arg: NameArg)
  {
    match arg
    case Ident(_) => true
    case Mapping(entries) => forall k :: 0 <= k < |entries| ==> entries[k].key.KeyName?
    case Invalid => false
  }

  /** `spies.one? ? spies.first : spies` */
  datatype Returned = One(spy: SpyId) | Many(spies: seq<SpyId>)

  /** Whether the keys of one Hash argument share a single `opts` hash (as
      `create_and_hook_spy` does) or each get the caller's options afresh (as intended). */
  datatype Sharing = SharedOptions | FreshOptions

  /** A spy `on`/`stub` hooked: its id and the `opts` hash after `hook`. */
  datatype Hooked = Hooked(spy: SpyId, opts: HookOptions)

  /** The spy a name argument is meant to produce: its name and its plan. */
  datatype Planned = Planned(name: Name, plan: Option<Plan>)

  predicate Installed(s: Spy, obj: ObjId, p: Planned)
  {
    s.hooked && s.target == obj && s.calls == [] && s.name == p.name && s.plan == p.plan
  }

  /** `w2` is `w1` plus the freshly built spies `ids`, one per element of `intended`,
      all registered in order, with every older spy as it was. */
  predicate Grew(w1: World, w2: World, obj: ObjId, ids: seq<SpyId>, intended: seq<Planned>)
  {
    && w2.all == w1.all + ids
    && |ids| == |intended|
    && |w2.spies| == |w1.spies| + |ids|
    && w2.spies[..|w1.spies|] == w1.spies
    && (forall k :: 0 <= k < |ids| ==> ids[k] == |w1.spies| + k)
    && (forall k :: 0 <= k < |ids| ==> Installed(w2.spies[|w1.spies| + k], obj, intended[k]))
  }

  /** Operations on the registry keep the set of target objects. */
  predicate SameTargets(w1: World, w2: World)
  {
    w1.objects.Keys == w2.objects.Keys && |w1.spies| <= |w2.spies|
  }

  /** Every target other than `obj` is as it was. */
  predicate OthersKept(w1: World, w2: World, obj: ObjId)
  {
    forall o :: o in w1.objects && o != obj ==> o in w2.objects && w2.objects[o] == w1.objects[o]
  }

  lemma GrewTrans(w1: World, w2: World, w3: World, obj: ObjId,
                  ids1: seq<SpyId>, ids2: seq<SpyId>, p1: seq<Planned>, p2: seq<Planned>)
    requires Grew(w1, w2, obj, ids1, p1) && Grew(w2, w3, obj, ids2, p2)
    ensures Grew(w1, w3, obj, ids1 + ids2, p1 + p2)
  {
    var n1 := |w1.spies|;
    var n2 := |w2.spies|;
    assert w3.spies[..n1] == w3.spies[..n2][..n1];
    forall k | 0 <= k < |ids1 + ids2|
      ensures (ids1 + ids2)[k] == n1 + k
      ensures Installed(w3.spies[n1 + k], obj, (p1 + p2)[k])
    {
      if k < |ids1| {
        assert w3.spies[n1 + k] == w3.spies[..n2][n1 + k];
      } else {
        assert (ids1 + ids2)[k] == ids2[k - |ids1|];
        assert (p1 + p2)[k] == p2[k - |ids1|];
      }
    }
  }

  /** The spies in a return value, in order. */
  function Listed(ret: Returned): seq<SpyId>
  {
    match ret
    case One(id) => [id]
    case Many(ids) => ids
  }

  /** `spies.one? ? spies.first : spies`: a lone spy is returned by itself, any other
      number as a list; either way no spy is lost or reordered. */
  function Collapse(ids: seq<SpyId>): (r: Returned)
    ensures r.One? <==> |ids| == 1
    ensures Listed(r) == ids
  {
    if |ids| == 1 then One(ids[0]) else Many(ids)
  }

  /** The `String, Symbol` branch of `create_and_hook_spy`: `new(base_object,
      method_name).hook(opts)`, then `all << spy`. A spy whose hook raised is built
      but never registered. */
  function HookName(w: World, obj: ObjId, name: Name, opts: HookOptions): (r: Step<Hooked>)
    requires Valid(w) && obj in w.objects
    ensures Valid(r.world) && SameTargets(w, r.world)
    ensures r.result.Failure? ==> r.world.all == w.all && r.world.objects == w.objects
    ensures r.result.Success? ==>
              r.result.value.spy == |w.spies| &&
              Grew(w, r.world, obj, [|w.spies|], [Planned(name, None)])
    ensures r.result.Success? ==>
              Hook(NewSpy(|w.spies|, obj, name), w.objects[obj], opts).Success? &&
              r.world.objects == w.objects[obj := Hook(NewSpy(|w.spies|, obj, name), w.objects[obj], opts).value.obj] &&
              r.result.value.opts == Hook(NewSpy(|w.spies|, obj, name), w.objects[obj], opts).value.opts
  {
    var id := |w.spies|;
    var s := NewSpy(id, obj, name);
    var w1 := w.(spies := w.spies + [s]);
    match Hook(s, w.objects[obj], opts)
    case Failure(e) => Step(w1, Failure(e))
    case Success(h) =>
      var w2 := World(w.objects[obj := h.obj], w.spies + [h.spy], w.all + [id]);
      assert w2.spies[..|w.spies|] == w.spies;
      Step(w2, Success(Hooked(id, h.opts)))
  }

  /** `.and_return(result)` on a registered spy: a constant plan, which never fails. */
  function SetConstant(w: World, id: SpyId, v: Value): (r: World)
    requires Valid(w) && id < |w.spies|
    ensures Valid(r) && SameTargets(w, r) && r.all == w.all && r.objects == w.objects
    ensures |r.spies| == |w.spies| && r.spies[id] == w.spies[id].(plan := Some(Constant(v)))
    ensures forall j :: 0 <= j < |w.spies| && j != id ==> r.spies[j] == w.spies[j]
  {
    w.(spies := w.spies[id := AndReturn(w.spies[id], v, None).value])
  }

  /** The spies a Hash argument is meant to produce, one per key in order, each with
      the constant plan for its value. */
  function EntriesIntended(entries: seq<Pair>): seq<Planned>
  {
    if entries == [] then []
    else
      (if entries[0].key.KeyName? then [Planned(entries[0].key.name, Some(Constant(entries[0].result)))] else [])
      + EntriesIntended(entries[1..])
  }

  /** The spies a name argument is meant to produce. */
  function Intended(arg: NameArg): seq<Planned>
  {
    match arg
    case Ident(n) => [Planned(n, None)]
    case Mapping(entries) => EntriesIntended(entries)
    case Invalid => []
  }

  /** The `Hash` branch of `create_and_hook_spy`: one spy per key, each given its
      value as constant plan. With `SharedOptions` the `opts` hash each `hook` rewrote
      goes on to the next key; with `FreshOptions` every key starts from `opts`. */
  function HookEntries(w: World, obj: ObjId, entries: seq<Pair>, opts: HookOptions, sharing: Sharing)
    : (r: Step<seq<SpyId>>)
    requires Valid(w) && obj in w.objects
    ensures Valid(r.world) && SameTargets(w, r.world)
    ensures r.result.Success? ==> Grew(w, r.world, obj, r.result.value, EntriesIntended(entries))
    ensures r.result.Success? ==> forall k :: 0 <= k < |entries| ==> entries[k].key.KeyName?
    ensures OthersKept(w, r.world, obj)
    decreases |entries|
  {
    if entries == [] then Step(w, Success([]))
    else match entries[0].key
      case KeyOther => Step(w, Failure(InvalidNameClass))
      case KeyName(n) =>
        var first := HookName(w, obj, n, opts);
        match first.result
        case Failure(e) => Step(first.world, Failure(e))
        case Success(hooked) =>
          var w1 := SetConstant(first.world, hooked.spy, entries[0].result);
          var next := if sharing == SharedOptions then hooked.opts else opts;
          var rest := HookEntries(w1, obj, entries[1..], next, sharing);
          match rest.result
          case Failure(e) => rest
          case Success(ids) =>
            HookEntriesStep(w, first.world, w1, rest.world, obj, entries, hooked.spy, ids);
            Step(rest.world, Success([hooked.spy] + ids))
  }

  /** The bookkeeping behind one step of `HookEntries`: the first key's spy, given
      its constant plan, followed by the spies of the other keys. */
  lemma HookEntriesStep(w: World, w0: World, w1: World, w2: World, obj: ObjId, entries: seq<Pair>,
                        id: SpyId, ids: seq<SpyId>)
    requires Valid(w0) && id < |w0.spies| && entries != [] && entries[0].key.KeyName?
    requires Grew(w, w0, obj, [id], [Planned(entries[0].key.name, None)])
    requires w1 == SetConstant(w0, id, entries[0].result)
    requires Grew(w1, w2, obj, ids, EntriesIntended(entries[1..]))
    requires forall k :: 0 <= k < |entries[1..]| ==> entries[1..][k].key.KeyName?
    ensures Grew(w, w2, obj, [id] + ids, EntriesIntended(entries))
    ensures forall k :: 0 <= k < |entries| ==> entries[k].key.KeyName?
  {
    var p := [Planned(entries[0].key.name, Some(Constant(entries[0].result)))];
    assert Grew(w, w1, obj, [id], p) by {
      assert [id][0] == |w.spies| + 0;
      assert w1.spies[..|w.spies|] == w0.spies[..|w.spies|];
    }
    GrewTrans(w, w1, w2, obj, [id], ids, p, EntriesIntended(entries[1..]));
    assert EntriesIntended(entries) == p + EntriesIntended(entries[1..]);
    assert forall k :: 1 <= k < |entries| ==> entries[k] == entries[1..][k - 1];
  }

  /** `create_and_hook_spy(base_object, method_name, opts)` */
  function CreateAndHook(w: World, obj: ObjId, arg: NameArg, opts: HookOptions, sharing: Sharing)
    : (r: Step<seq<SpyId>>)
    requires Valid(w) && obj in w.objects
    ensures Valid(r.world) && SameTargets(w, r.world)
    ensures r.result.Success? ==> Grew(w, r.world, obj, r.result.value, Intended(arg))
    ensures r.result.Success? ==> WellFormedArg(arg)
    ensures arg.Invalid? ==> r == Step(w, Failure(InvalidNameClass))
    ensures OthersKept(w, r.world, obj)
  {
    match arg
    case Ident(n) =>
      var st := HookName(w, obj, n, opts);
      (match st.result
       case Failure(e) => Step(st.world, Failure(e))
       case Success(hooked) => Step(st.world, Success([hooked.spy])))
    case Mapping(entries) => HookEntries(w, obj, entries, opts, sharing)
    case Invalid => Step(w, Failure(InvalidNameClass))
  }

  /** The spies a whole argument list is meant to produce, in order. */
  function IntendedAll(names: seq<NameArg>): seq<Planned>
  {
    if names == [] then [] else Intended(names[0]) + IntendedAll(names[1..])
  }

  /** `method_names.map { create_and_hook_spy(...) }.flatten`, each name with a new
      `opts` hash (`{}` for `on`, `{force: true}` for `stub`). */
  function HookEach(w: World, obj: ObjId, names: seq<NameArg>, force: bool, sharing: Sharing)
    : (r: Step<seq<SpyId>>)
    requires Valid(w) && obj in w.objects
    ensures Valid(r.world) && SameTargets(w, r.world)
    ensures r.result.Success? ==> Grew(w, r.world, obj, r.result.value, IntendedAll(names))
    ensures r.result.Success? ==> Invalid !in names
    ensures r.result.Success? ==> forall i :: 0 <= i < |names| ==> WellFormedArg(names[i])
    ensures OthersKept(w, r.world, obj)
    decreases |names|
  {
    if names == [] then Step(w, Success([]))
    else
      var first := CreateAndHook(w, obj, names[0], HookOptions(force, None), sharing);
      match first.result
      case Failure(e) => Step(first.world, Failure(e))
      case Success(ids) =>
        var rest := HookEach(first.world, obj, names[1..], force, sharing);
        match rest.result
        case Failure(e) => rest
        case Success(more) =>
          HookEachStep(w, first.world, rest.world, obj, names, ids, more);
          Step(rest.world, Success(ids + more))
  }

  /** The bookkeeping behind one step of `HookEach`. */
  lemma HookEachStep(w1: World, w2: World, w3: World, obj: ObjId, names: seq<NameArg>,
                     ids: seq<SpyId>, more: seq<SpyId>)
    requires names != [] && !names[0].Invalid? && Invalid !in names[1..]
    requires WellFormedArg(names[0]) && forall i :: 0 <= i < |names[1..]| ==> WellFormedArg(names[1..][i])
    requires Grew(w1, w2, obj, ids, Intended(names[0]))
    requires Grew(w2, w3, obj, more, IntendedAll(names[1..]))
    ensures Grew(w1, w3, obj, ids + more, IntendedAll(names))
    ensures Invalid !in names
    ensures forall i :: 0 <= i < |names| ==> WellFormedArg(names[i])
  {
    assert forall i :: 1 <= i < |names| ==> names[i] == names[1..][i - 1];
    GrewTrans(w1, w2, w3, obj, ids, more, Intended(names[0]), IntendedAll(names[1..]));
    assert names == [names[0]] + names[1..];
  }

  /** `Spy.on(base_object, *method_names)`, each key of a Hash argument hooked with
      its own options (the intended behaviour). */
  function On(w: World, obj: ObjId, names: seq<NameArg>): (r: Step<Returned>)
    requires Valid(w) && obj in w.objects
    ensures Valid(r.world)
    ensures r.result.Success? <==> HookEach(w, obj, names, false, FreshOptions).result.Success?
    ensures r.result.Success? ==>
              |w.all| <= |r.world.all| &&
              Grew(w, r.world, obj, r.world.all[|w.all|..], IntendedAll(names)) &&
              r.result.value == Collapse(r.world.all[|w.all|..])
    ensures Invalid in names ==> r.result.Failure?
    ensures r.result.Success? ==> forall i :: 0 <= i < |names| ==> WellFormedArg(names[i])
    ensures OthersKept(w, r.world, obj)
  {
    var st := HookEach(w, obj, names, false, FreshOptions);
    match st.result
    case Failure(e) => Step(st.world, Failure(e))
    case Success(ids) => Step(st.world, Success(Collapse(ids)))
  }

  /** `Spy.stub(base_object, *method_names)`: `on` with `force: true`, each key of a
      Hash argument hooked with its own options (the intended behaviour). */
  function Stub(w: World, obj: ObjId, names: seq<NameArg>): (r: Step<Returned>)
    requires Valid(w) && obj in w.objects
    ensures Valid(r.world)
    ensures r.result.Success? <==> HookEach(w, obj, names, true, FreshOptions).result.Success?
    ensures r.result.Success? ==>
              |w.all| <= |r.world.all| &&
              Grew(w, r.world, obj, r.world.all[|w.all|..], IntendedAll(names)) &&
              r.result.value == Collapse(r.world.all[|w.all|..])
    ensures Invalid in names ==> r.result.Failure?
    ensures r.result.Success? ==> forall i :: 0 <= i < |names| ==> WellFormedArg(names[i])
    ensures OthersKept(w, r.world, obj)
  {
    var st := HookEach(w, obj, names, true, FreshOptions);
    match st.result
    case Failure(e) => Step(st.world, Failure(e))
    case Success(ids) => Step(st.world, Success(Collapse(ids)))
  }

  /** `Spy.on` as lib/spy.rb writes it, with one `opts` hash shared by the
      keys of a Hash argument. */
  function OnAsWritten(w: World, obj: ObjId, names: seq<NameArg>): (r: Step<Returned>)
    requires Valid(w) && obj in w.objects
    ensures Valid(r.world)
    ensures r.result.Success? <==> HookEach(w, obj, names, false, SharedOptions).result.Success?
    ensures r.result.Success? ==>
              |w.all| <= |r.world.all| &&
              Grew(w, r.world, obj, r.world.all[|w.all|..], IntendedAll(names)) &&
              r.result.value == Collapse(r.world.all[|w.all|..])
    ensures Invalid in names ==> r.result.Failure?
    ensures r.result.Success? ==> forall i :: 0 <= i < |names| ==> WellFormedArg(names[i])
    ensures OthersKept(w, r.world, obj)
  {
    var st := HookEach(w, obj, names, false, SharedOptions);
    match st.result
    case Failure(e) => Step(st.world, Failure(e))
    case Success(ids) => Step(st.world, Success(Collapse(ids)))
  }

  /** `Spy.stub` as lib/spy.rb writes it: one `{force: true}` hash shared by
      the keys of a Hash argument. */
  function StubAsWritten(w: World, obj: ObjId, names: seq<NameArg>): (r: Step<Returned>)
    requires Valid(w) && obj in w.objects
    ensures Valid(r.world)
    ensures r.result.Success? <==> HookEach(w, obj, names, true, SharedOptions).result.Success?
    ensures r.result.Success? ==>
              |w.all| <= |r.world.all| &&
              Grew(w, r.world, obj, r.world.all[|w.all|..], IntendedAll(names)) &&
              r.result.value == Collapse(r.world.all[|w.all|..])
    ensures Invalid in names ==> r.result.Failure?
    ensures r.result.Success? ==> forall i :: 0 <= i < |names| ==> WellFormedArg(names[i])
    ensures OthersKept(w, r.world, obj)
  {
    var st := HookEach(w, obj, names, true, SharedOptions);
    match st.result
    case Failure(e) => Step(st.world, Failure(e))
    case Success(ids) => Step(st.world, Success(Collapse(ids)))
  }

  /** The condition of `unhook_and_remove_spy`'s block. `==` between a name and a
      Hash or another object is false, and a String never equals a Symbol. */
  predicate Matches(s: Spy, obj: ObjId, arg: NameArg)
  {
    s.target == obj && arg == Ident(s.name)
  }

  /** `spy.unhook` on the spy with this id, against its target. */
  function UnhookSpy(w: World, id: SpyId): (r: Result<World>)
    requires Valid(w) && id < |w.spies|
    ensures r.Success? ==> Valid(r.value) && SameTargets(w, r.value) && r.value.all == w.all
    ensures r.Success? ==> |r.value.spies| == |w.spies| && !r.value.spies[id].hooked
    ensures r.Success? ==> forall j :: 0 <= j < |w.spies| ==> SameSpy(r.value.spies[j], w.spies[j])
    ensures r.Success? ==> forall j :: 0 <= j < |w.spies| && j != id ==> r.value.spies[j] == w.spies[j]
    ensures r.Failure? <==> Unhook(w.spies[id], w.objects[w.spies[id].target]).Failure?
    ensures r.Success? ==>
              r.value.objects == w.objects[w.spies[id].target := Unhook(w.spies[id], w.objects[w.spies[id].target]).value.obj] &&
              r.value.spies[id] == Unhook(w.spies[id], w.objects[w.spies[id].target]).value.spy
  {
    var s := w.spies[id];
    match Unhook(s, w.objects[s.target])
    case Failure(e) => Failure(e)
    case Success(e) => Success(w.(objects := w.objects[s.target := e.obj], spies := w.spies[id := e.spy]))
  }

  /** Ids that refer to spies of `w`. */
  predicate InHeap(w: World, ids: seq<SpyId>)
  {
    forall k :: 0 <= k < |ids| ==> ids[k] < |w.spies|
  }

  /** The worlds agree on every spy's identity. */
  predicate SameIdentities(w1: World, w2: World)
  {
    |w1.spies| == |w2.spies| && forall j :: 0 <= j < |w1.spies| ==> SameSpy(w1.spies[j], w2.spies[j])
  }

  /** The ids of `ids` whose spies match, in order. */
  function Matching(w: World, obj: ObjId, arg: NameArg, ids: seq<SpyId>): seq<SpyId>
    requires InHeap(w, ids)
  {
    if ids == [] then []
    else (if Matches(w.spies[ids[0]], obj, arg) then [ids[0]] else []) + Matching(w, obj, arg, ids[1..])
  }

  /** The ids of `ids` whose spies do not match, in order. */
  function Remaining(w: World, obj: ObjId, arg: NameArg, ids: seq<SpyId>): seq<SpyId>
    requires InHeap(w, ids)
  {
    if ids == [] then []
    else (if Matches(w.spies[ids[0]], obj, arg) then [] else [ids[0]]) + Remaining(w, obj, arg, ids[1..])
  }

  lemma {:induction false} FilterFrame(w1: World, w2: World, obj: ObjId, arg: NameArg, ids: seq<SpyId>)
    requires InHeap(w1, ids) && SameIdentities(w1, w2)
    ensures Matching(w1, obj, arg, ids) == Matching(w2, obj, arg, ids)
    ensures Remaining(w1, obj, arg, ids) == Remaining(w2, obj, arg, ids)
    decreases |ids|
  {
    if ids != [] {
      FilterFrame(w1, w2, obj, arg, ids[1..]);
    }
  }

  /** `all.delete_if { ... }` in `unhook_and_remove_spy`, with `pending` the part of
      the array not yet visited. A matching spy is unhooked and dropped; the others
      stay in order. When an `unhook` raises, the array keeps what was kept so far,
      the spy that raised and everything after it. */
  function Sweep(w: World, obj: ObjId, arg: NameArg, pending: seq<SpyId>, kept: seq<SpyId>, removed: seq<SpyId>)
    : (r: Step<seq<SpyId>>)
    requires Valid(w) && InHeap(w, pending) && InHeap(w, kept)
    ensures Valid(r.world) && SameTargets(w, r.world) && SameIdentities(w, r.world)
    ensures r.result.Success? ==> Swept(w, r.world, obj, arg, pending, kept, removed, r.result.value)
    ensures OthersKept(w, r.world, obj)
    decreases |pending|
  {
    if pending == [] then Step(w.(all := kept), Success(removed))
    else
      var id := pending[0];
      if Matches(w.spies[id], obj, arg) then
        match UnhookSpy(w, id)
        case Failure(e) => Step(w.(all := kept + pending), Failure(e))
        case Success(w1) =>
          assert InHeap(w1, pending[1..]);
          var r := Sweep(w1, obj, arg, pending[1..], kept, removed + [id]);
          SweepMatchedStep(w, w1, r, obj, arg, pending, kept, removed);
          r
      else
        assert InHeap(w, kept + [id]);
        var r := Sweep(w, obj, arg, pending[1..], kept + [id], removed);
        SweepKeptStep(w, r, obj, arg, pending, kept, removed);
        r
  }

  /** What a completed `delete_if` over `pending` leaves: the registry holds the kept
      ids and the non-matching pending ones in order, the matching ones are returned
      in order and are unhooked, and no spy outside `pending` changed. */
  predicate Swept(w: World, w': World, obj: ObjId, arg: NameArg, pending: seq<SpyId>,
                  kept: seq<SpyId>, removed: seq<SpyId>, out: seq<SpyId>)
    requires InHeap(w, pending) && |w'.spies| == |w.spies|
  {
    && w'.all == kept + Remaining(w, obj, arg, pending)
    && out == removed + Matching(w, obj, arg, pending)
    && (forall k :: 0 <= k < |pending| && Matches(w.spies[pending[k]], obj, arg) ==> !w'.spies[pending[k]].hooked)
    && (forall j :: 0 <= j < |w.spies| && j !in pending ==> w'.spies[j] == w.spies[j])
  }

  lemma SweepMatchedStep(w: World, w1: World, r: Step<seq<SpyId>>, obj: ObjId, arg: NameArg,
                         pending: seq<SpyId>, kept: seq<SpyId>, removed: seq<SpyId>)
    requires Valid(w) && InHeap(w, pending) && pending != [] && Matches(w.spies[pending[0]], obj, arg)
    requires UnhookSpy(w, pending[0]) == Success(w1)
    requires Valid(r.world) && SameTargets(w1, r.world) && SameIdentities(w1, r.world)
    requires InHeap(w1, pending[1..])
    requires r.result.Success? ==> Swept(w1, r.world, obj, arg, pending[1..], kept, removed + [pending[0]], r.result.value)
    ensures Valid(r.world) && SameTargets(w, r.world) && SameIdentities(w, r.world)
    ensures r.result.Success? ==> Swept(w, r.world, obj, arg, pending, kept, removed, r.result.value)
  {
    var id := pending[0];
    FilterFrame(w, w1, obj, arg, pending[1..]);
    if r.result.Success? {
      assert Remaining(w, obj, arg, pending) == Remaining(w, obj, arg, pending[1..]);
      assert Matching(w, obj, arg, pending) == [id] + Matching(w, obj, arg, pending[1..]);
      forall k | 0 <= k < |pending| && Matches(w.spies[pending[k]], obj, arg)
        ensures !r.world.spies[pending[k]].hooked
      {
        if k > 0 {
          assert pending[k] == pending[1..][k - 1];
        } else if id !in pending[1..] {
          assert r.world.spies[id] == w1.spies[id];
        } else {
          var k' :| 0 <= k' < |pending[1..]| && pending[1..][k'] == id;
        }
      }
    }
  }

  lemma SweepKeptStep(w: World, r: Step<seq<SpyId>>, obj: ObjId, arg: NameArg,
                      pending: seq<SpyId>, kept: seq<SpyId>, removed: seq<SpyId>)
    requires Valid(w) && InHeap(w, pending) && pending != [] && !Matches(w.spies[pending[0]], obj, arg)
    requires Valid(r.world) && SameTargets(w, r.world) && SameIdentities(w, r.world)
    requires r.result.Success? ==> Swept(w, r.world, obj, arg, pending[1..], kept + [pending[0]], removed, r.result.value)
    ensures r.result.Success? ==> Swept(w, r.world, obj, arg, pending, kept, removed, r.result.value)
  {
    if r.result.Success? {
      assert Remaining(w, obj, arg, pending) == [pending[0]] + Remaining(w, obj, arg, pending[1..]);
      assert Matching(w, obj, arg, pending) == Matching(w, obj, arg, pending[1..]);
      forall k | 0 <= k < |pending| && Matches(w.spies[pending[k]], obj, arg)
        ensures !r.world.spies[pending[k]].hooked
      {
        assert k > 0;
        assert pending[k] == pending[1..][k - 1];
      }
    }
  }

  /** Whether a spy is named by one of the arguments of `off`. */
  predicate NamedBy(s: Spy, obj: ObjId, names: seq<NameArg>)
  {
    s.target == obj && Ident(s.name) in names
  }

  /** The ids of `ids` whose spies no argument names, in order. */
  function Unnamed(w: World, obj: ObjId, names: seq<NameArg>, ids: seq<SpyId>): seq<SpyId>
    requires InHeap(w, ids)
  {
    if ids == [] then []
    else (if NamedBy(w.spies[ids[0]], obj, names) then [] else [ids[0]]) + Unnamed(w, obj, names, ids[1..])
  }

  lemma {:induction false} UnnamedByNothing(w: World, obj: ObjId, ids: seq<SpyId>)
    requires InHeap(w, ids)
    ensures Unnamed(w, obj, [], ids) == ids
    decreases |ids|
  {
    if ids != [] {
      UnnamedByNothing(w, obj, ids[1..]);
    }
  }

  /** Filtering by the first name and then by the others is filtering by all names. */
  lemma {:induction false} UnnamedSplit(w: World, w1: World, obj: ObjId, names: seq<NameArg>, ids: seq<SpyId>)
    requires InHeap(w, ids) && SameIdentities(w, w1) && names != []
    ensures InHeap(w1, Remaining(w, obj, names[0], ids))
    ensures Unnamed(w1, obj, names[1..], Remaining(w, obj, names[0], ids)) == Unnamed(w, obj, names, ids)
    decreases |ids|
  {
    MatchingMembers(w, obj, names[0], ids);
    if ids != [] {
      UnnamedSplit(w, w1, obj, names, ids[1..]);
      var x := ids[0];
      assert SameSpy(w.spies[x], w1.spies[x]);
      assert names == [names[0]] + names[1..];
      assert NamedBy(w.spies[x], obj, names) <==>
               Matches(w.spies[x], obj, names[0]) || NamedBy(w1.spies[x], obj, names[1..]);
      var tail := Remaining(w, obj, names[0], ids[1..]);
      if Matches(w.spies[x], obj, names[0]) {
        assert Remaining(w, obj, names[0], ids) == tail;
        assert Unnamed(w, obj, names, ids) == Unnamed(w, obj, names, ids[1..]);
      } else {
        var r := [x] + tail;
        assert Remaining(w, obj, names[0], ids) == r;
        assert r[0] == x && r[1..] == tail;
        assert Unnamed(w1, obj, names[1..], r) ==
                 (if NamedBy(w1.spies[x], obj, names[1..]) then [] else [x]) + Unnamed(w1, obj, names[1..], tail);
      }
    }
  }

  /** What `off` promises about the spies it visited. */
  ghost predicate SweptAll(w: World, w': World, obj: ObjId, names: seq<NameArg>, out: seq<SpyId>)
    requires Valid(w) && |w'.spies| == |w.spies|
  {
    && InHeap(w, w.all) && w'.all == Unnamed(w, obj, names, w.all)
    && (forall id :: id in w'.all <==> id in w.all && !NamedBy(w.spies[id], obj, names))
    && (forall id :: id in out <==> id in w.all && NamedBy(w.spies[id], obj, names))
    && (forall id :: id in w.all && NamedBy(w.spies[id], obj, names) ==> !w'.spies[id].hooked)
    && (forall j :: 0 <= j < |w.spies| && j !in w.all ==> w'.spies[j] == w.spies[j])
  }

  /** `method_names.map { unhook_and_remove_spy(...) }.flatten` */
  function SweepEach(w: World, obj: ObjId, names: seq<NameArg>): (r: Step<seq<SpyId>>)
    requires Valid(w)
    ensures Valid(r.world) && SameTargets(w, r.world) && SameIdentities(w, r.world)
    ensures r.result.Success? ==> SweptAll(w, r.world, obj, names, r.result.value)
    ensures OthersKept(w, r.world, obj)
    decreases |names|
  {
    if names == [] then
      UnnamedByNothing(w, obj, w.all);
      Step(w, Success([]))
    else
      var first := Sweep(w, obj, names[0], w.all, [], []);
      match first.result
      case Failure(e) => Step(first.world, Failure(e))
      case Success(ids) =>
        var rest := SweepEach(first.world, obj, names[1..]);
        match rest.result
        case Failure(e) => rest
        case Success(more) =>
          SweepEachStep(w, first.world, rest.world, obj, names, ids, more);
          Step(rest.world, Success(ids + more))
  }

  /** The bookkeeping behind one step of `SweepEach`. */
  lemma SweepEachStep(w: World, w1: World, w2: World, obj: ObjId, names: seq<NameArg>,
                      ids: seq<SpyId>, more: seq<SpyId>)
    requires Valid(w) && Valid(w1) && names != []
    requires SameIdentities(w, w1) && SameIdentities(w1, w2)
    requires Swept(w, w1, obj, names[0], w.all, [], [], ids)
    requires SweptAll(w1, w2, obj, names[1..], more)
    ensures SweptAll(w, w2, obj, names, ids + more)
  {
    assert names == [names[0]] + names[1..];
    MatchingMembers(w, obj, names[0], w.all);
    UnnamedSplit(w, w1, obj, names, w.all);
    assert w1.all == Remaining(w, obj, names[0], w.all);
    forall id | id in w.all
      ensures NamedBy(w.spies[id], obj, names) <==>
                Matches(w.spies[id], obj, names[0]) || NamedBy(w1.spies[id], obj, names[1..])
    {
      assert SameSpy(w.spies[id], w1.spies[id]);
    }
    forall id | id in w.all && NamedBy(w.spies[id], obj, names)
      ensures !w2.spies[id].hooked
    {
      assert SameSpy(w.spies[id], w1.spies[id]);
      var k :| 0 <= k < |w.all| && w.all[k] == id;
      if Matches(w.spies[id], obj, names[0]) {
        assert !w1.spies[id].hooked;
        assert id !in w1.all;
      } else {
        assert id in w1.all;
      }
    }
    forall j | 0 <= j < |w.spies| && j !in w.all
      ensures w2.spies[j] == w.spies[j]
    {
      assert j !in w1.all;
    }
  }

  /** Membership in the two filters. */
  lemma {:induction false} MatchingMembers(w: World, obj: ObjId, arg: NameArg, ids: seq<SpyId>)
    requires InHeap(w, ids)
    ensures forall id :: id in Matching(w, obj, arg, ids) <==> id in ids && Matches(w.spies[id], obj, arg)
    ensures forall id :: id in Remaining(w, obj, arg, ids) <==> id in ids && !Matches(w.spies[id], obj, arg)
    decreases |ids|
  {
    if ids != [] {
      MatchingMembers(w, obj, arg, ids[1..]);
      assert ids == [ids[0]] + ids[1..];
    }
  }

  /** `Spy.off(base_object, *method_names)` */
  function Off(w: World, obj: ObjId, names: seq<NameArg>): (r: Step<Returned>)
    requires Valid(w)
    ensures Valid(r.world)
    ensures r.result.Success? <==> SweepEach(w, obj, names).result.Success?
    ensures |r.world.spies| == |w.spies| && r.world.objects.Keys == w.objects.Keys
    ensures r.result.Success? ==> SweptAll(w, r.world, obj, names, Listed(r.result.value))
    ensures OthersKept(w, r.world, obj)
  {
    var st := SweepEach(w, obj, names);
    match st.result
    case Failure(e) => Step(st.world, Failure(e))
    case Success(ids) => Step(st.world, Success(Collapse(ids)))
  }

  /** `all.each(&:unhook)`: the first `unhook` that raises stops the loop. On success
      every visited spy had been hooked (so none was visited twice) and is now
      unhooked, and no other spy changed. */
  function UnhookEach(w: World, pending: seq<SpyId>): (r: Step<()>)
    requires Valid(w) && InHeap(w, pending)
    ensures Valid(r.world) && SameTargets(w, r.world) && SameIdentities(w, r.world) && r.world.all == w.all
    ensures r.result.Success? ==> forall k :: 0 <= k < |pending| ==> w.spies[pending[k]].hooked
    ensures r.result.Success? ==> forall k :: 0 <= k < |pending| ==> !r.world.spies[pending[k]].hooked
    ensures r.result.Success? ==> forall j :: 0 <= j < |w.spies| && j !in pending ==> r.world.spies[j] == w.spies[j]
    ensures forall o :: o in w.objects && o !in TargetsOf(w, pending) ==> o in r.world.objects && r.world.objects[o] == w.objects[o]
    decreases |pending|
  {
    if pending == [] then Step(w, Success(()))
    else match UnhookSpy(w, pending[0])
      case Failure(e) => Step(w, Failure(e))
      case Success(w1) =>
        assert InHeap(w1, pending[1..]);
        var r := UnhookEach(w1, pending[1..]);
        UnhookEachStep(w, w1, r, pending);
        TargetsStep(w, w1, r.world, pending);
        r
  }

  lemma UnhookEachStep(w: World, w1: World, r: Step<()>, pending: seq<SpyId>)
    requires Valid(w) && InHeap(w, pending) && pending != []
    requires UnhookSpy(w, pending[0]) == Success(w1)
    requires SameIdentities(w1, r.world)
    requires r.result.Success? ==> forall k :: 0 <= k < |pending[1..]| ==> w1.spies[pending[1..][k]].hooked
    requires r.result.Success? ==> forall k :: 0 <= k < |pending[1..]| ==> !r.world.spies[pending[1..][k]].hooked
    requires r.result.Success? ==>
               forall j :: 0 <= j < |w1.spies| && j !in pending[1..] ==> r.world.spies[j] == w1.spies[j]
    ensures r.result.Success? ==> forall k :: 0 <= k < |pending| ==> w.spies[pending[k]].hooked
    ensures r.result.Success? ==> forall k :: 0 <= k < |pending| ==> !r.world.spies[pending[k]].hooked
    ensures r.result.Success? ==> forall j :: 0 <= j < |w.spies| && j !in pending ==> r.world.spies[j] == w.spies[j]
  {
    var id := pending[0];
    if r.result.Success? {
      assert w.spies[id].hooked;
      assert id !in pending[1..];
      forall k | 0 <= k < |pending|
        ensures w.spies[pending[k]].hooked && !r.world.spies[pending[k]].hooked
      {
        if k > 0 {
          assert pending[k] == pending[1..][k - 1];
        }
      }
    }
  }

  /** The targets of the spies `ids` names. */
  function TargetsOf(w: World, ids: seq<SpyId>): set<ObjId>
    requires InHeap(w, ids)
  {
    if ids == [] then {} else {w.spies[ids[0]].target} + TargetsOf(w, ids[1..])
  }

  lemma {:induction false} TargetsFrame(w1: World, w2: World, ids: seq<SpyId>)
    requires InHeap(w1, ids) && SameIdentities(w1, w2)
    ensures InHeap(w2, ids) && TargetsOf(w1, ids) == TargetsOf(w2, ids)
    decreases |ids|
  {
    if ids != [] {
      assert SameSpy(w1.spies[ids[0]], w2.spies[ids[0]]);
      TargetsFrame(w1, w2, ids[1..]);
    }
  }

  /** The object frame behind one step of `UnhookEach`: unhooking the first spy
      touches only its target, and the rest touch only theirs. */
  lemma TargetsStep(w: World, w1: World, w2: World, pending: seq<SpyId>)
    requires Valid(w) && InHeap(w, pending) && pending != []
    requires UnhookSpy(w, pending[0]) == Success(w1) && SameIdentities(w, w1)
    requires InHeap(w1, pending[1..])
    requires forall o :: o in w1.objects && o !in TargetsOf(w1, pending[1..]) ==>
               o in w2.objects && w2.objects[o] == w1.objects[o]
    ensures forall o :: o in w.objects && o !in TargetsOf(w, pending) ==>
              o in w2.objects && w2.objects[o] == w.objects[o]
  {
    TargetsFrame(w, w1, pending[1..]);
  }

  /** `Spy.reset`: forgets every spy without unhooking any. */
  function ResetAll(w: World): (r: World)
    requires Valid(w)
    ensures Valid(r) && r.all == [] && r.objects == w.objects && r.spies == w.spies
  {
    w.(all := [])
  }

  /** `Spy.teardown`: unhook every registered spy, then `reset`. */
  function Teardown(w: World): (r: Step<()>)
    requires Valid(w)
    ensures Valid(r.world) && SameIdentities(w, r.world)
    ensures r.result.Success? ==> r.world.all == []
    ensures r.result.Success? ==> forall id :: id in w.all ==> !r.world.spies[id].hooked
    ensures r.result.Failure? ==> r.world.all == w.all
    ensures InHeap(w, w.all) &&
            forall o :: o in w.objects && o !in TargetsOf(w, w.all) ==> o in r.world.objects && r.world.objects[o] == w.objects[o]
  {
    var st := UnhookEach(w, w.all);
    match st.result
    case Failure(e) => st
    case Success(_) => Step(ResetAll(st.world), Success(()))
  }
}

=== FILE: registry_lemmas.dfy ===
/** Properties of the class-level facade: `on` followed by `off` restores the
    target and the registry, `stub` hooks a method `on` refuses, and the options a
    Hash argument's keys are hooked with, as written and as intended. */
module RegistryLemmas {
  import opened Values
  import opened Objects
  import opened Spies
  import opened SpyLemmas
  import opened Registry

  /** `delete_if` walks past spies that do not match without touching anything. */
  lemma {:induction false} SweepSkipsUnmatched(w: World, obj: ObjId, arg: NameArg, p1: seq<SpyId>, p2: seq<SpyId>,
                                               kept: seq<SpyId>, removed: seq<SpyId>)
    requires Valid(w) && InHeap(w, p1) && InHeap(w, p2) && InHeap(w, kept)
    requires forall k :: 0 <= k < |p1| ==> !Matches(w.spies[p1[k]], obj, arg)
    ensures InHeap(w, p1 + p2) && InHeap(w, kept + p1)
    ensures Sweep(w, obj, arg, p1 + p2, kept, removed) == Sweep(w, obj, arg, p2, kept + p1, removed)
    decreases |p1|
  {
    if p1 == [] {
      assert p1 + p2 == p2 && kept + p1 == kept;
    } else {
      var x := p1[0];
      assert (p1 + p2)[0] == x && (p1 + p2)[1..] == p1[1..] + p2;
      assert InHeap(w, kept + [x]);
      SweepSkipsUnmatched(w, obj, arg, p1[1..], p2, kept + [x], removed);
      assert kept + [x] + p1[1..] == kept + p1;
    }
  }

  /** `on` or `stub` with one name is one `hook` of a new spy: when it raises,
      nothing is registered and the objects are as they were; otherwise the spy is
      registered and its target has the recorder. */
  lemma HookOneName(w: World, obj: ObjId, n: Name, force: bool)
    requires Valid(w) && obj in w.objects
    ensures var hk := Hook(NewSpy(|w.spies|, obj, n), w.objects[obj], HookOptions(force, None));
            var st := HookEach(w, obj, [Ident(n)], force, FreshOptions);
            (hk.Failure? ==> st.result == Failure(hk.error) && st.world.all == w.all && st.world.objects == w.objects) &&
            (hk.Success? ==>
               st == Step(World(w.objects[obj := hk.value.obj], w.spies + [hk.value.spy], w.all + [|w.spies|]),
                          Success([|w.spies|])))
  {
    var opts := HookOptions(force, None);
    var first := CreateAndHook(w, obj, Ident(n), opts, FreshOptions);
    assert [Ident(n)][1..] == [];
    assert HookEach(first.world, obj, [Ident(n)][1..], force, FreshOptions) == Step(first.world, Success([]));
    var hk := Hook(NewSpy(|w.spies|, obj, n), w.objects[obj], opts);
    if hk.Success? {
      var w1 := World(w.objects[obj := hk.value.obj], w.spies + [hk.value.spy], w.all + [|w.spies|]);
      assert HookName(w, obj, n, opts) == Step(w1, Success(Hooked(|w.spies|, hk.value.opts)));
      assert first == Step(w1, Success([|w.spies|]));
      assert [|w.spies|] + [] == [|w.spies|];
    }
  }

  /** `Spy.on(object, name)` then `Spy.off(object, name)`, for a method the object
      has no singleton method for and that no registered spy already watches: `off`
      returns the spy `on` returned, the object's method tables are as before, and
      the registry holds what it held before. */
  lemma OnThenOffRestores(w: World, obj: ObjId, n: Name)
    requires Valid(w) && obj in w.objects
    requires n.id !in w.objects[obj].singleton
    requires n.id in w.objects[obj].cls
    requires forall k :: 0 <= k < |w.all| ==> !Matches(w.spies[w.all[k]], obj, Ident(n))
    ensures On(w, obj, [Ident(n)]).result == Success(One(|w.spies|))
    ensures var on := On(w, obj, [Ident(n)]);
            var off := Off(on.world, obj, [Ident(n)]);
            off.result == on.result && off.world.objects == w.objects && off.world.all == w.all
  {
    var id := |w.spies|;
    var o := w.objects[obj];
    var opts := HookOptions(false, None);
    var s := NewSpy(id, obj, n);
    HookOneName(w, obj, n, false);
    NewSpyCoherent(id, obj, n, o);
    var h := Hook(s, o, opts).value;
    RoundTripWithoutOverride(s, o, opts);
    var w1 := World(w.objects[obj := h.obj], w.spies + [h.spy], w.all + [id]);
    assert On(w, obj, [Ident(n)]) == Step(w1, Success(One(id)));
    OffAfterOn(w, w1, obj, n, h);
  }

  /** The `off` half of `OnThenOffRestores`. */
  lemma OffAfterOn(w: World, w1: World, obj: ObjId, n: Name, h: Hooking)
    requires Valid(w) && obj in w.objects
    requires forall k :: 0 <= k < |w.all| ==> !Matches(w.spies[w.all[k]], obj, Ident(n))
    requires h.spy.target == obj && h.spy.name == n && h.spy.id == |w.spies|
    requires Unhook(h.spy, h.obj).Success? && Unhook(h.spy, h.obj).value.obj == w.objects[obj]
    requires w1 == World(w.objects[obj := h.obj], w.spies + [h.spy], w.all + [|w.spies|])
    ensures Valid(w1)
    ensures var off := Off(w1, obj, [Ident(n)]);
            off.result == Success(One(|w.spies|)) && off.world.objects == w.objects && off.world.all == w.all
  {
    var id := |w.spies|;
    OldSpiesUnmatched(w, w1, obj, n, h);
    SweepSkipsUnmatched(w1, obj, Ident(n), w.all, [id], [], []);
    var w2 := SweepLast(w, w1, obj, n, h);
    assert Sweep(w1, obj, Ident(n), w1.all, [], []) == Step(w2, Success([id])) by {
      assert w.all + [id] == w1.all && [] + w.all == w.all;
    }
    OneSweep(w1, w2, obj, Ident(n), [id]);
  }

  /** `off` with one name is one `delete_if`. */
  lemma OneSweep(w1: World, w2: World, obj: ObjId, arg: NameArg, ids: seq<SpyId>)
    requires Valid(w1) && Valid(w2)
    requires Sweep(w1, obj, arg, w1.all, [], []) == Step(w2, Success(ids))
    ensures Off(w1, obj, [arg]) == Step(w2, Success(Collapse(ids)))
  {
    assert [arg][1..] == [];
    assert SweepEach(w2, obj, [arg][1..]) == Step(w2, Success([]));
    assert ids + [] == ids;
    assert SweepEach(w1, obj, [arg]) == Step(w2, Success(ids));
  }

  /** The spies registered before `on` are left alone by the `off`. */
  lemma OldSpiesUnmatched(w: World, w1: World, obj: ObjId, n: Name, h: Hooking)
    requires Valid(w) && obj in w.objects
    requires forall k :: 0 <= k < |w.all| ==> !Matches(w.spies[w.all[k]], obj, Ident(n))
    requires h.spy.target == obj && h.spy.id == |w.spies|
    requires w1 == World(w.objects[obj := h.obj], w.spies + [h.spy], w.all + [|w.spies|])
    ensures Valid(w1) && InHeap(w1, w.all) && InHeap(w1, [|w.spies|])
    ensures forall k :: 0 <= k < |w.all| ==> !Matches(w1.spies[w.all[k]], obj, Ident(n))
  {
    forall k | 0 <= k < |w.all|
      ensures !Matches(w1.spies[w.all[k]], obj, Ident(n))
    {
      assert w1.spies[w.all[k]] == w.spies[w.all[k]];
    }
  }

  /** Unhooking the one matching spy, at the end of the registry. */
  lemma SweepLast(w: World, w1: World, obj: ObjId, n: Name, h: Hooking) returns (w2: World)
    requires Valid(w) && obj in w.objects
    requires h.spy.target == obj && h.spy.name == n && h.spy.id == |w.spies|
    requires Unhook(h.spy, h.obj).Success? && Unhook(h.spy, h.obj).value.obj == w.objects[obj]
    requires w1 == World(w.objects[obj := h.obj], w.spies + [h.spy], w.all + [|w.spies|])
    ensures Valid(w1) && InHeap(w1, w.all)
    ensures Sweep(w1, obj, Ident(n), [|w.spies|], w.all, []) == Step(w2, Success([|w.spies|]))
    ensures w2.objects == w.objects && w2.all == w.all
  {
    var id := |w.spies|;
    assert InHeap(w1, w.all);
    var e := Unhook(h.spy, h.obj).value;
    var w3 := w1.(objects := w1.objects[obj := e.obj], spies := w1.spies[id := e.spy]);
    assert w1.spies[id] == h.spy;
    assert UnhookSpy(w1, id) == Success(w3);
    w2 := w3.(all := w.all);
    assert [id][1..] == [] && [] + [id] == [id];
    assert Sweep(w3, obj, Ident(n), [], w.all, [id]) == Step(w2, Success([id]));
  }

  /** `Spy.on(object, name)` on an empty registry, then `Spy.teardown`: the
      registry is empty again and the object's method tables are as before. */
  lemma OnThenTeardownRestores(w: World, obj: ObjId, n: Name)
    requires Valid(w) && obj in w.objects && w.all == []
    requires n.id !in w.objects[obj].singleton && n.id in w.objects[obj].cls
    ensures On(w, obj, [Ident(n)]).result == Success(One(|w.spies|))
    ensures var td := Teardown(On(w, obj, [Ident(n)]).world);
            td.result.Success? && td.world.objects == w.objects && td.world.all == []
  {
    var id := |w.spies|;
    var o := w.objects[obj];
    var opts := HookOptions(false, None);
    var s := NewSpy(id, obj, n);
    HookOneName(w, obj, n, false);
    NewSpyCoherent(id, obj, n, o);
    var h := Hook(s, o, opts).value;
    RoundTripWithoutOverride(s, o, opts);
    var w1 := World(w.objects[obj := h.obj], w.spies + [h.spy], [id]);
    assert On(w, obj, [Ident(n)]) == Step(w1, Success(One(id)));
    UnhookRegistered(w, w1, obj, id, h);
    TeardownSingle(w1, id);
  }

  /** The one registered spy of `w1` unhooks its target back to `w`'s. */
  lemma UnhookRegistered(w: World, w1: World, obj: ObjId, id: SpyId, h: Hooking)
    requires Valid(w) && obj in w.objects && id == |w.spies|
    requires w1 == World(w.objects[obj := h.obj], w.spies + [h.spy], [id])
    requires h.spy.target == obj
    requires Unhook(h.spy, h.obj).Success? && Unhook(h.spy, h.obj).value.obj == w.objects[obj]
    requires Valid(w1)
    ensures UnhookSpy(w1, id).Success? && UnhookSpy(w1, id).value.objects == w.objects
  {
    assert w1.spies[id] == h.spy;
  }

  /** `teardown` of a registry holding one spy that unhooks cleanly: it succeeds
      and leaves what that `unhook` left, with the registry empty. */
  lemma TeardownSingle(w1: World, id: SpyId)
    requires Valid(w1) && w1.all == [id] && id < |w1.spies| && UnhookSpy(w1, id).Success?
    ensures Teardown(w1).result.Success?
    ensures Teardown(w1).world == UnhookSpy(w1, id).value.(all := [])
  {
    assert [id][1..] == [];
    assert UnhookEach(w1, [id]) == Step(UnhookSpy(w1, id).value, Success(()));
  }

  /** `stub` forces the hook, so it installs a recorder for a method the object
      does not have at all, where `on` raises NameError and registers nothing. */
  lemma StubHooksMissingMethod(w: World, obj: ObjId, n: Name)
    requires Valid(w) && obj in w.objects && !w.objects[obj].isDouble
    requires n.id !in w.objects[obj].cls && n.id !in w.objects[obj].singleton
    ensures On(w, obj, [Ident(n)]).result == Failure(UndefinedMethod(n))
    ensures On(w, obj, [Ident(n)]).world.all == w.all
    ensures var st := Stub(w, obj, [Ident(n)]);
            st.result == Success(One(|w.spies|)) &&
            n.id in st.world.objects[obj].singleton &&
            st.world.objects[obj].singleton[n.id].impl == RecorderImpl(|w.spies|) &&
            st.world.spies[|w.spies|].original.None?
  {
    var s := NewSpy(|w.spies|, obj, n);
    var o := w.objects[obj];
    assert Observed(o, n).None?;
    HookOneName(w, obj, n, false);
    HookOneName(w, obj, n, true);
    assert Hook(s, o, HookOptions(true, None)).Success?;
  }

  /** The keys of a Hash argument name distinct methods that the object has only in
      its class. */
  predicate ClassOnlyKeys(o: Obj, entries: seq<Pair>)
  {
    && (forall k :: 0 <= k < |entries| ==>
          entries[k].key.KeyName? && entries[k].key.name.id in o.cls && entries[k].key.name.id !in o.singleton)
    && (forall k, l :: 0 <= k < l < |entries| ==> entries[k].key.name.id != entries[l].key.name.id)
  }

  /** Hooking the first key of a Hash argument: the remaining keys are hooked in
      the world `w1`, whose target is the one `hook` left, with the options `next`. */
  lemma EntryStep(w: World, obj: ObjId, entries: seq<Pair>, opts: HookOptions, sharing: Sharing)
    returns (w1: World, next: HookOptions)
    requires Valid(w) && obj in w.objects && entries != [] && entries[0].key.KeyName?
    requires Hook(NewSpy(|w.spies|, obj, entries[0].key.name), w.objects[obj], opts).Success?
    ensures var h := Hook(NewSpy(|w.spies|, obj, entries[0].key.name), w.objects[obj], opts).value;
            Valid(w1) && w1.objects == w.objects[obj := h.obj] &&
            next == (if sharing == SharedOptions then h.opts else opts)
    ensures var all := HookEntries(w, obj, entries, opts, sharing);
            var rest := HookEntries(w1, obj, entries[1..], next, sharing);
            all.world == rest.world && (all.result.Success? <==> rest.result.Success?)
  {
    var n := entries[0].key.name;
    var h := Hook(NewSpy(|w.spies|, obj, n), w.objects[obj], opts).value;
    var first := HookName(w, obj, n, opts);
    assert first.world.objects == w.objects[obj := h.obj];
    assert first.result.value.opts == h.opts;
    w1 := SetConstant(first.world, first.result.value.spy, entries[0].result);
    next := if sharing == SharedOptions then h.opts else opts;
  }

  /** After the first key's recorder is installed, the other keys still name
      distinct class-only methods. */
  lemma ClassOnlyKeysStep(o: Obj, o1: Obj, entries: seq<Pair>)
    requires ClassOnlyKeys(o, entries) && entries != []
    requires o1.cls == o.cls
    requires o1.singleton - {entries[0].key.name.id} == o.singleton - {entries[0].key.name.id}
    ensures ClassOnlyKeys(o1, entries[1..])
  {
    var id0 := entries[0].key.name.id;
    forall k | 0 <= k < |entries[1..]|
      ensures entries[1..][k].key.name.id !in o1.singleton
    {
      assert entries[1..][k] == entries[k + 1];
      assert entries[1..][k].key.name.id != id0;
      assert entries[1..][k].key.name.id !in o.singleton - {id0};
    }
  }

  /** What the rest of the keys leave of the first key's recorder, given what they
      leave of every entry they do not name. */
  lemma EntryFrame(o: Obj, o1: Obj, o2: Obj, entries: seq<Pair>)
    requires ClassOnlyKeys(o, entries) && entries != []
    requires o1.singleton - {entries[0].key.name.id} == o.singleton - {entries[0].key.name.id}
    requires forall id :: id in o1.singleton ==> id in o2.singleton && o2.singleton[id] == o1.singleton[id]
    ensures forall id :: id in o.singleton ==> id in o2.singleton && o2.singleton[id] == o.singleton[id]
    ensures forall k :: 1 <= k < |entries| ==> entries[k] == entries[1..][k - 1]
  {
    var id0 := entries[0].key.name.id;
    forall id | id in o.singleton
      ensures id in o1.singleton && o1.singleton[id] == o.singleton[id]
    {
      assert id != id0;
      assert id in o.singleton - {id0};
    }
  }

  /** Each key hooked with fresh options, forced or not, gets the class's own
      visibility, and the object's other singleton methods stay. */
  lemma {:induction false} FreshEntriesTakeClassVisibility(w: World, obj: ObjId, entries: seq<Pair>, force: bool)
    requires Valid(w) && obj in w.objects && ClassOnlyKeys(w.objects[obj], entries)
    ensures var r := HookEntries(w, obj, entries, HookOptions(force, None), FreshOptions);
            var o := w.objects[obj];
            r.result.Success? && obj in r.world.objects &&
            var o' := r.world.objects[obj];
            o'.cls == o.cls &&
            (forall id :: id in o.singleton ==> id in o'.singleton && o'.singleton[id] == o.singleton[id]) &&
            (forall k :: 0 <= k < |entries| ==>
               entries[k].key.name.id in o'.singleton &&
               o'.singleton[entries[k].key.name.id].visibility == o.cls[entries[k].key.name.id].visibility)
    decreases |entries|
  {
    if entries != [] {
      var o := w.objects[obj];
      FreshHookTakesClassVisibility(NewSpy(|w.spies|, obj, entries[0].key.name), o, force);
      var w1, next := EntryStep(w, obj, entries, HookOptions(force, None), FreshOptions);
      ClassOnlyKeysStep(o, w1.objects[obj], entries);
      FreshEntriesTakeClassVisibility(w1, obj, entries[1..], force);
      FreshEntriesConclude(o, w1.objects[obj], HookEntries(w1, obj, entries[1..], next, FreshOptions).world.objects[obj], entries);
    }
  }

  /** The step of `FreshEntriesTakeClassVisibility` on the object alone: `o1` is `o`
      with the first key's recorder, `o2` what the other keys made of `o1`. */
  lemma FreshEntriesConclude(o: Obj, o1: Obj, o2: Obj, entries: seq<Pair>)
    requires ClassOnlyKeys(o, entries) && entries != []
    requires o1.cls == o.cls && o2.cls == o1.cls
    requires o1.singleton - {entries[0].key.name.id} == o.singleton - {entries[0].key.name.id}
    requires entries[0].key.name.id in o1.singleton &&
             o1.singleton[entries[0].key.name.id].visibility == o.cls[entries[0].key.name.id].visibility
    requires forall id :: id in o1.singleton ==> id in o2.singleton && o2.singleton[id] == o1.singleton[id]
    requires forall k :: 0 <= k < |entries[1..]| ==>
               entries[1..][k].key.name.id in o2.singleton &&
               o2.singleton[entries[1..][k].key.name.id].visibility == o1.cls[entries[1..][k].key.name.id].visibility
    ensures forall id :: id in o.singleton ==> id in o2.singleton && o2.singleton[id] == o.singleton[id]
    ensures forall k :: 0 <= k < |entries| ==>
              entries[k].key.name.id in o2.singleton &&
              o2.singleton[entries[k].key.name.id].visibility == o.cls[entries[k].key.name.id].visibility
  {
    EntryFrame(o, o1, o2, entries);
  }

  /** Each key hooked with options that already name a visibility `v`, all sharing
      one options hash, gets `v`, whatever its own method's visibility. */
  lemma {:induction false} SharedEntriesTakeGivenVisibility(w: World, obj: ObjId, entries: seq<Pair>,
                                                            opts: HookOptions)
    requires Valid(w) && obj in w.objects && ClassOnlyKeys(w.objects[obj], entries) && opts.visibility.Some?
    ensures var r := HookEntries(w, obj, entries, opts, SharedOptions);
            var o := w.objects[obj];
            r.result.Success? && obj in r.world.objects &&
            var o' := r.world.objects[obj];
            o'.cls == o.cls &&
            (forall id :: id in o.singleton ==> id in o'.singleton && o'.singleton[id] == o.singleton[id]) &&
            (forall k :: 0 <= k < |entries| ==>
               entries[k].key.name.id in o'.singleton &&
               o'.singleton[entries[k].key.name.id].visibility == opts.visibility.value)
    decreases |entries|
  {
    if entries != [] {
      var o := w.objects[obj];
      var s := NewSpy(|w.spies|, obj, entries[0].key.name);
      assert Lookup(o, s.name.id).Some?;
      var w1, next := EntryStep(w, obj, entries, opts, SharedOptions);
      ClassOnlyKeysStep(o, w1.objects[obj], entries);
      SharedEntriesTakeGivenVisibility(w1, obj, entries[1..], next);
      EntryFrame(o, w1.objects[obj], HookEntries(w1, obj, entries[1..], next, SharedOptions).world.objects[obj], entries);
    }
  }

  /** One Hash argument hooked with a single shared options hash: every key's
      recorder gets the visibility of the FIRST key's method, which `hook` stored
      in that hash. */
  lemma SharedHashTakesFirstVisibility(w: World, obj: ObjId, entries: seq<Pair>, force: bool)
    requires Valid(w) && obj in w.objects && ClassOnlyKeys(w.objects[obj], entries) && entries != []
    ensures var r := HookEach(w, obj, [Mapping(entries)], force, SharedOptions);
            var o := w.objects[obj];
            r.result.Success? &&
            forall k :: 0 <= k < |entries| ==>
              entries[k].key.name.id in r.world.objects[obj].singleton &&
              r.world.objects[obj].singleton[entries[k].key.name.id].visibility ==
                o.cls[entries[0].key.name.id].visibility
  {
    var o := w.objects[obj];
    var opts := HookOptions(force, None);
    FreshHookTakesClassVisibility(NewSpy(|w.spies|, obj, entries[0].key.name), o, force);
    var w1, next := EntryStep(w, obj, entries, opts, SharedOptions);
    ClassOnlyKeysStep(o, w1.objects[obj], entries);
    SharedEntriesTakeGivenVisibility(w1, obj, entries[1..], next);
    var st := HookEntries(w, obj, entries, opts, SharedOptions);
    EntryFrame(o, w1.objects[obj], st.world.objects[obj], entries);
    assert CreateAndHook(w, obj, Mapping(entries), opts, SharedOptions) == st;
    assert HookEach(w, obj, [Mapping(entries)], force, SharedOptions).world == st.world;
  }

  /** `Spy.on` and `Spy.stub` as written, on one Hash argument: every key's recorder
      gets the visibility of the first key's method. */
  lemma AsWrittenHashTakesFirstVisibility(w: World, obj: ObjId, entries: seq<Pair>)
    requires Valid(w) && obj in w.objects && ClassOnlyKeys(w.objects[obj], entries) && entries != []
    ensures var r := OnAsWritten(w, obj, [Mapping(entries)]);
            r.result.Success? &&
            forall k :: 0 <= k < |entries| ==>
              entries[k].key.name.id in r.world.objects[obj].singleton &&
              r.world.objects[obj].singleton[entries[k].key.name.id].visibility ==
                w.objects[obj].cls[entries[0].key.name.id].visibility
    ensures var r := StubAsWritten(w, obj, [Mapping(entries)]);
            r.result.Success? &&
            forall k :: 0 <= k < |entries| ==>
              entries[k].key.name.id in r.world.objects[obj].singleton &&
              r.world.objects[obj].singleton[entries[k].key.name.id].visibility ==
                w.objects[obj].cls[entries[0].key.name.id].visibility
  {
    SharedHashTakesFirstVisibility(w, obj, entries, false);
    SharedHashTakesFirstVisibility(w, obj, entries, true);
  }

  /** One Hash argument with a fresh options hash per key, forced or not: every
      recorder has the visibility of the method it replaces. */
  lemma FreshHashKeepsEachVisibility(w: World, obj: ObjId, entries: seq<Pair>, force: bool)
    requires Valid(w) && obj in w.objects && ClassOnlyKeys(w.objects[obj], entries)
    ensures var r := HookEach(w, obj, [Mapping(entries)], force, FreshOptions);
            r.result.Success? &&
            forall k :: 0 <= k < |entries| ==>
              entries[k].key.name.id in r.world.objects[obj].singleton &&
              r.world.objects[obj].singleton[entries[k].key.name.id].visibility ==
                w.objects[obj].cls[entries[k].key.name.id].visibility
  {
    FreshEntriesTakeClassVisibility(w, obj, entries, force);
    var st := HookEntries(w, obj, entries, HookOptions(force, None), FreshOptions);
    assert CreateAndHook(w, obj, Mapping(entries), HookOptions(force, None), FreshOptions) == st;
    assert HookEach(w, obj, [Mapping(entries)], force, FreshOptions).world == st.world;
  }

  /** `Spy.on(object, a: x, b: y)` and `Spy.stub(object, a: x, b: y)` with a fresh
      options hash per key (the intended behaviour): every recorder has the
      visibility of the method it replaces. */
  lemma HashKeepsEachVisibility(w: World, obj: ObjId, entries: seq<Pair>)
    requires Valid(w) && obj in w.objects && ClassOnlyKeys(w.objects[obj], entries)
    ensures var r := On(w, obj, [Mapping(entries)]);
            r.result.Success? &&
            forall k :: 0 <= k < |entries| ==>
              entries[k].key.name.id in r.world.objects[obj].singleton &&
              r.world.objects[obj].singleton[entries[k].key.name.id].visibility ==
                w.objects[obj].cls[entries[k].key.name.id].visibility
    ensures var r := Stub(w, obj, [Mapping(entries)]);
            r.result.Success? &&
            forall k :: 0 <= k < |entries| ==>
              entries[k].key.name.id in r.world.objects[obj].singleton &&
              r.world.objects[obj].singleton[entries[k].key.name.id].visibility ==
                w.objects[obj].cls[entries[k].key.name.id].visibility
  {
    FreshHashKeepsEachVisibility(w, obj, entries, false);
    FreshHashKeepsEachVisibility(w, obj, entries, true);
  }

  /** `Spy.reset` forgets the registered spies without unhooking them: every spy
      stays as it was (hooked ones keep their recorders), and a later `teardown`
      finds nothing to unhook and changes nothing. */
  lemma ResetForgetsWithoutUnhooking(w: World)
    requires Valid(w)
    ensures forall id :: 0 <= id < |w.spies| ==> ResetAll(w).spies[id] == w.spies[id]
    ensures Teardown(ResetAll(w)) == Step(ResetAll(w), Success(()))
  {
    var w1 := ResetAll(w);
    assert UnhookEach(w1, w1.all) == Step(w1, Success(()));
    assert ResetAll(w1) == w1;
  }

  /** A class with a private `secret` and a public `greet`. */
  function TwoMethods(): Obj
  {
    Obj(map["secret" := Entry(Impl(Native(1), []), Private), "greet" := Entry(Impl(Native(2), [Req]), Public)],
        map[], false)
  }

  function SecretThenGreet(): seq<NameArg>
  {
    [Mapping([Pair(KeyName(Sym("secret")), Val(1)), Pair(KeyName(Sym("greet")), Val(2))])]
  }

  /** As written, `Spy.on(object, secret: 1, greet: 2)` and `Spy.stub(object,
      secret: 1, greet: 2)` hook `greet` with the visibility `hook` stored in the
      shared options while hooking `secret`: the public method's recorder becomes
      private. */
  lemma SharedOptionsLeakVisibility()
    ensures var r := OnAsWritten(World(map[0 := TwoMethods()], [], []), 0, SecretThenGreet());
            r.result.Success? &&
            "greet" in r.world.objects[0].singleton &&
            r.world.objects[0].singleton["greet"].visibility == Private &&
            TwoMethods().cls["greet"].visibility == Public
    ensures var r := StubAsWritten(World(map[0 := TwoMethods()], [], []), 0, SecretThenGreet());
            r.result.Success? &&
            "greet" in r.world.objects[0].singleton &&
            r.world.objects[0].singleton["greet"].visibility == Private
  {
    var es := SecretThenGreet()[0].entries;
    assert ClassOnlyKeys(TwoMethods(), es);
    AsWrittenHashTakesFirstVisibility(World(map[0 := TwoMethods()], [], []), 0, es);
    assert es[0].key.name.id == "secret" && es[1].key.name.id == "greet";
  }

  /** The same calls with fresh options per key leave `greet` public. */
  lemma FreshOptionsKeepVisibility()
    ensures var r := On(World(map[0 := TwoMethods()], [], []), 0, SecretThenGreet());
            r.result.Success? &&
            "greet" in r.world.objects[0].singleton &&
            r.world.objects[0].singleton["greet"].visibility == Public
    ensures var r := Stub(World(map[0 := TwoMethods()], [], []), 0, SecretThenGreet());
            r.result.Success? &&
            "greet" in r.world.objects[0].singleton &&
            r.world.objects[0].singleton["greet"].visibility == Public
  {
    var es := SecretThenGreet()[0].entries;
    assert ClassOnlyKeys(TwoMethods(), es);
    HashKeepsEachVisibility(World(map[0 := TwoMethods()], [], []), 0, es);
    assert es[1].key.name.id == "greet";
  }
}

=== FILE: spies.dfy ===
/** One `Spy` instance: the hook/unhook lifecycle on its target object, the return
    plan, the call log and the queries over it. Every operation is a pure function
    from the spy's state (and the target object's method tables, where the operation
    touches them) to the new state, or to the error the method raises. An error
    leaves the spy and the target's method tables as they were; the caller's
    `opts` hash, which `hook` rewrites before it can raise, is not part of a
    failed result. */
module Spies {
  import opened Values
  import opened Arity
  import opened Objects

  /** `CallLog = Struct.new(:object, :args, :block)` */
  datatype CallLog = CallLog(receiver: Value, args: seq<Value>, block: Option<BlockRef>)

  /** What `@plan` holds: the proc `and_return(value)` builds (it ignores its
      arguments), the block given to `and_return`, or the original method
      `and_call_through` captured. */
  datatype Plan = Constant(value: Value) | Custom(block: BlockRef) | CallThrough(original: Impl)

  /** The instance variables of a spy. `memoVisibility` is `@method_visibility`,
      which nothing resets (see `ClearMethod`). `@arity_range` is not kept: it is
      always `ArityOf(original)`. */
  datatype Spy = Spy(
    id: SpyId,
    target: ObjId,
    name: Name,
    calls: seq<CallLog>,
    plan: Option<Plan>,
    hooked: bool,
    original: Option<Impl>,
    removedSingleton: bool,
    memoVisibility: Option<Visibility>)

  /** The `opts` hash given to `hook`; `hook` writes both keys back into it. */
  datatype HookOptions = HookOptions(force: bool, visibility: Option<Visibility>)

  /** What a successful `hook` leaves behind: the spy, its target, and the caller's
      `opts` hash as `hook` rewrote it. */
  datatype Hooking = Hooking(spy: Spy, obj: Obj, opts: HookOptions)

  /** What a successful `unhook` leaves behind. */
  datatype Effect = Effect(spy: Spy, obj: Obj)

  /** Something a plan calls: a block, or a method implementation. */
  datatype Callable = CallBlock(block: BlockRef) | CallMethod(impl: Impl)

  /** The result of calling a block or a method, which the model cannot see into. */
  type Invoker = (Callable, seq<Value>, Option<BlockRef>) -> Value

  /** What `record` returns to the intercepted call, and the spy after it. */
  datatype Recorded = Recorded(spy: Spy, result: Value)

  /** The attributes fixed at construction. */
  predicate SameSpy(a: Spy, b: Spy)
  {
    a.id == b.id && a.target == b.target && a.name == b.name
  }

  /** `clear_method!`. It means to reset `@method_visibility` too, but assigns the
      misspelt `@method_visiblity`, so the memoised visibility survives. */
  function ClearMethod(s: Spy): (r: Spy)
    ensures !r.hooked && r.original.None? && !r.removedSingleton
    ensures r.memoVisibility == s.memoVisibility
    ensures SameSpy(r, s) && r.calls == s.calls && r.plan == s.plan
  {
    s.(hooked := false, original := None, removedSingleton := false)
  }

  /** `Spy.new(object, method_name)`, which runs `reset!` on blank instance variables. */
  function NewSpy(id: SpyId, target: ObjId, name: Name): (r: Spy)
    ensures r.id == id && r.target == target && r.name == name
    ensures r.calls == [] && r.plan.None? && !r.hooked
    ensures r.original.None? && !r.removedSingleton && r.memoVisibility.None?
  {
    Spy(id, target, name, [], None, false, None, false, None)
  }

  /** The value `method_visibility` computes when nothing is memoised: a public
      method reports the class's public or protected declaration, a method the
      object does not respond to reports the class's private one. */
  function Observed(o: Obj, name: Name): (r: Option<Visibility>)
    ensures r.Some? ==> ClassDefines(o, name.id, r.value)
    ensures r == Some(Private) <==> !RespondTo(o, name.id) && ClassDefines(o, name.id, Private)
    ensures RespondTo(o, name.id) && (ClassDefines(o, name.id, Public) || ClassDefines(o, name.id, Protected)) ==> r.Some?
    ensures r.Some? <==> name.id in o.cls && (RespondTo(o, name.id) <==> o.cls[name.id].visibility != Private)
  {
    if RespondTo(o, name.id) then
      if ClassDefines(o, name.id, Public) then Some(Public)
      else if ClassDefines(o, name.id, Protected) then Some(Protected)
      else None
    else if ClassDefines(o, name.id, Private) then Some(Private)
    else None
  }

  /** `method_visibility`: the memoised value if there is one, else a fresh one. */
  function VisibilityOf(s: Spy, o: Obj): Option<Visibility>
  {
    if s.memoVisibility.Some? then s.memoVisibility else Observed(o, s.name)
  }

  /** The spy after `method_visibility` has run: `||=` stores a non-nil answer. */
  function Memoise(s: Spy, o: Obj): Spy
  {
    s.(memoVisibility := VisibilityOf(s, o))
  }

  /** The condition of `hook`'s capture branch, after `opts[:force] ||= kind_of?(Double)`. */
  predicate MustCapture(s: Spy, o: Obj, opts: HookOptions)
  {
    VisibilityOf(s, o).Some? || !(opts.force || o.isDouble)
  }

  /** `hook(opts)`. Refuses a spy that is already hooked. In the capture branch the
      original is whatever lookup finds (a NameError if nothing), and a listed
      singleton method is removed first. The recorder closure then becomes the
      singleton method, with the requested or the original's visibility. */
  function Hook(s: Spy, o: Obj, opts: HookOptions): (r: Result<Hooking>)
    ensures s.hooked <==> r == Failure(AlreadyHooked(s.name))
    ensures !s.hooked ==> (r.Failure? <==> MustCapture(s, o, opts) && Lookup(o, s.name.id).None?)
    ensures !s.hooked && r.Failure? ==> r.error == UndefinedMethod(s.name)
    ensures r.Success? ==>
              var h := r.value;
              h.spy.hooked && SameSpy(h.spy, s) && h.spy.calls == s.calls && h.spy.plan == s.plan
    ensures r.Success? ==>
              var h := r.value;
              h.obj.cls == o.cls && h.obj.isDouble == o.isDouble &&
              h.obj.singleton - {s.name.id} == o.singleton - {s.name.id} &&
              s.name.id in h.obj.singleton && h.obj.singleton[s.name.id].impl == RecorderImpl(s.id)
    ensures r.Success? && MustCapture(s, o, opts) ==>
              r.value.spy.original == Some(Lookup(o, s.name.id).value.impl) &&
              r.value.spy.removedSingleton == (s.removedSingleton || SingletonListed(o, s.name))
    ensures r.Success? && !MustCapture(s, o, opts) ==>
              r.value.spy.original == s.original && r.value.spy.removedSingleton == s.removedSingleton
    ensures r.Success? ==>
              r.value.spy.memoVisibility ==
                (if VisibilityOf(s, o).Some? || opts.visibility.Some? then VisibilityOf(s, o)
                 else if s.name.id in o.cls && o.cls[s.name.id].visibility != Private then Some(o.cls[s.name.id].visibility)
                 else None)
    ensures r.Success? ==>
              r.value.opts.force == (opts.force || o.isDouble) &&
              r.value.opts.visibility == (if opts.visibility.Some? then opts.visibility else r.value.spy.memoVisibility)
    ensures r.Success? ==>
              r.value.obj.singleton[s.name.id].visibility ==
                (if r.value.opts.visibility.Some? then r.value.opts.visibility.value else Public)
  {
    var id := s.name.id;
    if s.hooked then Failure(AlreadyHooked(s.name))
    else
      var force := opts.force || o.isDouble;
      var s1 := Memoise(s, o);
      var capture := s1.memoVisibility.Some? || !force;
      if capture && Lookup(o, id).None? then Failure(UndefinedMethod(s.name))
      else
        var listed := capture && SingletonListed(o, s.name);
        var s2 := if capture then s1.(original := Some(Lookup(o, id).value.impl),
                                      removedSingleton := s1.removedSingleton || listed)
                  else s1;
        var o1 := if listed then o.(singleton := o.singleton - {id}) else o;
        var o2 := DefineSingleton(o1, id, RecorderImpl(s.id));
        var s3 := if opts.visibility.Some? then s2 else Memoise(s2, o2);
        var vis := if opts.visibility.Some? then opts.visibility else s3.memoVisibility;
        var o3 := if vis.Some? then o2.(singleton := o2.singleton[id := Entry(RecorderImpl(s.id), vis.value)])
                  else o2;
        Success(Hooking(s3.(hooked := true), o3, HookOptions(force, vis)))
  }

  /** `unhook`. Removes the recorder from the singleton class, puts back the
      singleton method `hook` removed (if it removed one), restores the memoised
      visibility and clears the hook state. `calls` and the plan stay. */
  function Unhook(s: Spy, o: Obj): (r: Result<Effect>)
    ensures !s.hooked <==> r == Failure(NotHooked(s.name))
    ensures s.hooked && s.name.id !in o.singleton ==> r == Failure(UndefinedMethod(s.name))
    ensures r.Success? ==>
              var e := r.value;
              !e.spy.hooked && e.spy.original.None? && !e.spy.removedSingleton &&
              SameSpy(e.spy, s) && e.spy.calls == s.calls && e.spy.plan == s.plan &&
              (s.memoVisibility.Some? ==> e.spy.memoVisibility == s.memoVisibility)
    ensures r.Success? ==>
              r.value.obj.cls == o.cls && r.value.obj.isDouble == o.isDouble &&
              r.value.obj.singleton - {s.name.id} == o.singleton - {s.name.id}
    ensures r.Success? && s.removedSingleton ==>
              s.original.Some? && s.name.id in r.value.obj.singleton &&
              r.value.obj.singleton[s.name.id] ==
                Entry(s.original.value, if r.value.spy.memoVisibility.Some? then r.value.spy.memoVisibility.value
                                         else Public)
    ensures r.Success? && s.memoVisibility.None? && s.removedSingleton ==>
              r.value.spy.memoVisibility ==
                (if s.name.id in o.cls && o.cls[s.name.id].visibility != Private then Some(o.cls[s.name.id].visibility)
                 else None)
    ensures r.Success? && s.memoVisibility.None? && !s.removedSingleton ==>
              r.value.spy.memoVisibility ==
                (if s.name.id in o.cls && o.cls[s.name.id].visibility != Protected then Some(o.cls[s.name.id].visibility)
                 else None)
    ensures r.Success? && !s.removedSingleton && s.name.id in r.value.obj.singleton ==>
              s.name.id in o.cls && r.value.obj.singleton[s.name.id].impl == o.cls[s.name.id].impl
  {
    var id := s.name.id;
    if !s.hooked then Failure(NotHooked(s.name))
    else match RemoveSingleton(o, s.name)
      case Failure(e) => Failure(e)
      case Success(o1) =>
        if s.removedSingleton && s.original.None? then Failure(NotAMethod(s.name))
        else
          var o2 := if s.removedSingleton then DefineSingleton(o1, id, s.original.value) else o1;
          var s1 := Memoise(s, o2);
          if s1.memoVisibility.None? then Success(Effect(ClearMethod(s1), o2))
          else match Export(o2, s.name, s1.memoVisibility.value)
            case Failure(e) => Failure(e)
            case Success(o3) => Success(Effect(ClearMethod(s1), o3))
  }

  /** What the intended `hook` leaves: the hooking, and the singleton method the
      recorder displaced, kept whole (implementation and visibility). */
  datatype Saving = Saving(hooking: Hooking, displaced: Option<Entry>)

  /** `hook` as evidently intended. The recorder is installed exactly as `Hook`
      installs it, but any singleton method of the name is kept, whatever its
      visibility, whether the name is a Symbol or a String, and whether or not the
      hook is forced. */
  function HookSaving(s: Spy, o: Obj, opts: HookOptions): (r: Result<Saving>)
    ensures r.Failure? <==> Hook(s, o, opts).Failure?
    ensures r.Success? ==>
              var h := r.value.hooking;
              h.spy.hooked && SameSpy(h.spy, s) && h.spy.calls == s.calls && !h.spy.removedSingleton &&
              h.obj.cls == o.cls && h.obj.isDouble == o.isDouble &&
              h.obj.singleton - {s.name.id} == o.singleton - {s.name.id} &&
              s.name.id in h.obj.singleton && h.obj.singleton[s.name.id].impl == RecorderImpl(s.id)
    ensures r.Success? ==>
              (r.value.displaced.Some? <==> s.name.id in o.singleton) &&
              (s.name.id in o.singleton ==> r.value.displaced.value == o.singleton[s.name.id])
  {
    match Hook(s, o, opts)
    case Failure(e) => Failure(e)
    case Success(h) =>
      var displaced := if s.name.id in o.singleton then Some(o.singleton[s.name.id]) else None;
      Success(Saving(h.(spy := h.spy.(removedSingleton := false)), displaced))
  }

  /** `unhook` as evidently intended: the recorder goes, and the singleton method
      `HookSaving` displaced comes back exactly as it was. With nothing displaced it
      is `Unhook`. */
  function UnhookRestoring(s: Spy, displaced: Option<Entry>, o: Obj): (r: Result<Effect>)
    ensures !s.hooked <==> r == Failure(NotHooked(s.name))
    ensures s.hooked && s.name.id !in o.singleton ==> r == Failure(UndefinedMethod(s.name))
    ensures r.Success? ==>
              var e := r.value;
              !e.spy.hooked && e.spy.original.None? && SameSpy(e.spy, s) &&
              e.spy.calls == s.calls && e.spy.plan == s.plan
    ensures r.Success? ==>
              r.value.obj.cls == o.cls && r.value.obj.isDouble == o.isDouble &&
              r.value.obj.singleton - {s.name.id} == o.singleton - {s.name.id}
    ensures r.Success? && displaced.Some? ==>
              s.name.id in r.value.obj.singleton && r.value.obj.singleton[s.name.id] == displaced.value
  {
    match Unhook(s.(removedSingleton := false), o)
    case Failure(e) => Failure(e)
    case Success(e) =>
      if displaced.None? then Success(e)
      else Success(e.(obj := e.obj.(singleton := e.obj.singleton[s.name.id := displaced.value])))
  }

  /** `and_return(value = nil, &block)`: a block becomes the plan, unless a non-nil
      value came with it; otherwise a proc answering `value`. The last call wins. */
  function AndReturn(s: Spy, value: Value, block: Option<BlockRef>): (r: Result<Spy>)
    ensures r.Failure? <==> block.Some? && value != Nil
    ensures r.Failure? ==> r.error == ValueAndBlock
    ensures r.Success? && block.Some? ==> r.value == s.(plan := Some(Custom(block.value)))
    ensures r.Success? && block.None? ==> r.value == s.(plan := Some(Constant(value)))
  {
    match block
    case Some(b) => if value != Nil then Failure(ValueAndBlock) else Success(s.(plan := Some(Custom(b))))
    case None => Success(s.(plan := Some(Constant(value))))
  }

  /** `and_call_through`: the plan becomes the captured original method. */
  function AndCallThrough(s: Spy): (r: Result<Spy>)
    ensures r.Failure? <==> s.original.None?
    ensures r.Failure? ==> r.error == NoOriginal
    ensures r.Success? ==> r.value == s.(plan := Some(CallThrough(s.original.value)))
  {
    match s.original
    case None => Failure(NoOriginal)
    case Some(m) => Success(s.(plan := Some(CallThrough(m))))
  }

  /** `has_been_called?` */
  function HasBeenCalled(s: Spy): (b: bool)
    ensures b <==> s.calls != []
  {
    |s.calls| > 0
  }

  /** `calls.any? { |call_log| call_log.args == args }`, scanning from the front. */
  function CalledWith(calls: seq<CallLog>, args: seq<Value>): (b: bool)
    ensures b <==> exists i :: 0 <= i < |calls| && calls[i].args == args
  {
    if calls == [] then false
    else if calls[0].args == args then true
    else
      var rest := CalledWith(calls[1..], args);
      assert rest ==> calls[1..][0].args == args || exists i :: 1 <= i < |calls| && calls[i].args == args;
      rest
  }

  /** `has_been_called_with?(*args)` */
  function HasBeenCalledWith(s: Spy, args: seq<Value>): (b: bool)
    ensures b <==> exists i :: 0 <= i < |s.calls| && s.calls[i].args == args
  {
    CalledWith(s.calls, args)
  }

  /** What `@plan.call(*args, &block) if @plan` answers. */
  function PlanResult(plan: Option<Plan>, args: seq<Value>, block: Option<BlockRef>, run: Invoker): Value
  {
    match plan
    case None => Nil
    case Some(Constant(v)) => v
    case Some(Custom(b)) => run(CallBlock(b), args, block)
    case Some(CallThrough(m)) => run(CallMethod(m), args, block)
  }

  /** `record(object, args, block)`: the arity check first, then one log entry,
      then the plan's answer. */
  function Record(s: Spy, receiver: Value, args: seq<Value>, block: Option<BlockRef>, run: Invoker): (r: Result<Recorded>)
    ensures r.Failure? <==> !(ArityOf(s.original).None? || Admits(ArityOf(s.original).value, |args|))
    ensures r.Failure? ==> r.error.TooFewArguments? || r.error.TooManyArguments?
    ensures r.Success? ==> r.value.spy == s.(calls := s.calls + [CallLog(receiver, args, block)])
    ensures r.Success? && s.plan.None? ==> r.value.result == Nil
    ensures r.Success? && s.plan.Some? && s.plan.value.Constant? ==> r.value.result == s.plan.value.value
    ensures r.Success? && s.plan.Some? && s.plan.value.Custom? ==>
              r.value.result == run(CallBlock(s.plan.value.block), args, block)
    ensures r.Success? && s.plan.Some? && s.plan.value.CallThrough? ==>
              r.value.result == run(CallMethod(s.plan.value.original), args, block)
  {
    match CheckArity(ArityOf(s.original), |args|)
    case Failure(e) => Failure(e)
    case Success(_) =>
      Success(Recorded(s.(calls := s.calls + [CallLog(receiver, args, block)]),
                       PlanResult(s.plan, args, block, run)))
  }

  /** `reset!`: empties the log and clears the hook state. It does not touch the
      target, the plan or the memoised visibility. (It always returns `true`.) */
  function Reset(s: Spy): (r: Spy)
    ensures r.calls == [] && !r.hooked && r.original.None? && !r.removedSingleton
    ensures SameSpy(r, s) && r.plan == s.plan && r.memoVisibility == s.memoVisibility
  {
    ClearMethod(s).(calls := [])
  }
}

=== FILE: spy_lemmas.dfy ===
/** Properties of one spy over several operations: the invariant every operation
    keeps, the hook/unhook round trip on the target's method tables, the call log
    and the return plans. */
module SpyLemmas {
  import opened Values
  import opened Arity
  import opened Objects
  import opened Spies

  /** What holds of every spy and its target once the spy was built by `NewSpy` and
      changed only by the operations of `Spies`: the memoised visibility is the
      class's own, a removed singleton method always has its original to put back,
      and an unhooked spy holds no original. */
  predicate Coherent(s: Spy, o: Obj)
  {
    && (s.memoVisibility.Some? ==> ClassDefines(o, s.name.id, s.memoVisibility.value))
    && (s.removedSingleton ==> s.original.Some?)
    && (!s.hooked ==> s.original.None? && !s.removedSingleton)
  }

  lemma NewSpyCoherent(id: SpyId, target: ObjId, name: Name, o: Obj)
    ensures Coherent(NewSpy(id, target, name), o)
  {
  }

  lemma HookKeepsCoherent(s: Spy, o: Obj, opts: HookOptions)
    requires Coherent(s, o)
    requires Hook(s, o, opts).Success?
    ensures Coherent(Hook(s, o, opts).value.spy, Hook(s, o, opts).value.obj)
  {
  }

  /** With the invariant, `unhook` of a hooked spy fails only when its singleton
      method is gone (another spy on the same method removed it); in particular the
      two raise sites behind `remove_method` never fire. */
  lemma UnhookKeepsCoherent(s: Spy, o: Obj)
    requires Coherent(s, o) && s.hooked && s.name.id in o.singleton
    ensures Unhook(s, o).Success?
    ensures Coherent(Unhook(s, o).value.spy, Unhook(s, o).value.obj)
  {
    var id := s.name.id;
    var o1 := o.(singleton := o.singleton - {id});
    var o2 := if s.removedSingleton then DefineSingleton(o1, id, s.original.value) else o1;
    var s1 := Memoise(s, o2);
    if s1.memoVisibility.Some? {
      assert ClassDefines(o2, id, s1.memoVisibility.value);
      assert Lookup(o2, id).Some?;
    }
  }

  lemma PlanAndRecordKeepCoherent(s: Spy, o: Obj, value: Value, block: Option<BlockRef>,
                                  receiver: Value, args: seq<Value>, run: Invoker)
    requires Coherent(s, o)
    ensures AndReturn(s, value, block).Success? ==> Coherent(AndReturn(s, value, block).value, o)
    ensures AndCallThrough(s).Success? ==> Coherent(AndCallThrough(s).value, o)
    ensures Record(s, receiver, args, block, run).Success? ==>
              Coherent(Record(s, receiver, args, block, run).value.spy, o)
    ensures Coherent(Reset(s), o)
  {
  }

  /** Hook then unhook, when the target had no singleton method of that name: the
      target comes back exactly as it was, class table, singleton table and all, and
      the spy keeps its log. */
  lemma {:induction false} RoundTripWithoutOverride(s: Spy, o: Obj, opts: HookOptions)
    requires Coherent(s, o) && !s.hooked && s.name.id !in o.singleton
    requires Hook(s, o, opts).Success?
    ensures var h := Hook(s, o, opts).value;
            Unhook(h.spy, h.obj).Success? &&
            Unhook(h.spy, h.obj).value.obj == o &&
            !Unhook(h.spy, h.obj).value.spy.hooked &&
            Unhook(h.spy, h.obj).value.spy.calls == s.calls
  {
    var id := s.name.id;
    var h := Hook(s, o, opts).value;
    HookKeepsCoherent(s, o, opts);
    assert !h.spy.removedSingleton;
    UnhookKeepsCoherent(h.spy, h.obj);
    var o1 := h.obj.(singleton := h.obj.singleton - {id});
    assert o1.singleton == o.singleton by {
      assert o.singleton - {id} == o.singleton;
    }
    assert o1 == o;
    var s1 := Memoise(h.spy, o1);
    if s1.memoVisibility.Some? {
      assert ClassDefines(o, id, s1.memoVisibility.value);
      assert Export(o1, s.name, s1.memoVisibility.value) == Success(o);
    }
  }

  /** The visibility a singleton method put back by `unhook` ends up with: the
      spy's memoised or freshly observed visibility, else the class's protected
      declaration, else public. It is read from the class table, never from the
      singleton method's own visibility. */
  function RestoredVisibility(s: Spy, o: Obj): Visibility
  {
    match VisibilityOf(s, o)
    case Some(v) => v
    case None => if ClassDefines(o, s.name.id, Protected) then Protected else Public
  }

  /** Hook then unhook, when `hook` captured the original and the target had a public
      or protected singleton method of that (Symbol) name: that singleton method's
      implementation is put back and the rest of the singleton table is as before,
      but its visibility becomes `RestoredVisibility`; so the target comes back as it
      was exactly when that is the override's own visibility. */
  lemma RoundTripRestoresOverride(s: Spy, o: Obj, opts: HookOptions)
    requires Coherent(s, o) && !s.hooked && SingletonListed(o, s.name)
    requires MustCapture(s, o, opts) && Hook(s, o, opts).Success?
    ensures var h := Hook(s, o, opts).value;
            Unhook(h.spy, h.obj).Success? &&
            var after := Unhook(h.spy, h.obj).value.obj;
            after.cls == o.cls &&
            after.singleton - {s.name.id} == o.singleton - {s.name.id} &&
            s.name.id in after.singleton &&
            after.singleton[s.name.id] == Entry(o.singleton[s.name.id].impl, RestoredVisibility(s, o)) &&
            (after == o <==> o.singleton[s.name.id].visibility == RestoredVisibility(s, o))
  {
    var id := s.name.id;
    var h := Hook(s, o, opts).value;
    HookKeepsCoherent(s, o, opts);
    UnhookKeepsCoherent(h.spy, h.obj);
    var e := Unhook(h.spy, h.obj).value;
    var o1 := h.obj.(singleton := h.obj.singleton - {id});
    var o2 := DefineSingleton(o1, id, h.spy.original.value);
    assert RespondTo(o2, id);
    if s.memoVisibility.None? && Observed(o, s.name).None? {
      if ClassDefines(o, id, Protected) {
        assert Observed(o2, s.name) == Some(Protected);
      }
    }
    assert e.obj.singleton[id] == Entry(o.singleton[id].impl, RestoredVisibility(s, o));
  }

  /** Two overrides `unhook` puts back with another visibility. A protected singleton
      `greet` over no class method comes back public; a public singleton `greet` over
      a protected class method comes back protected, and its recorder was protected
      while hooked. */
  lemma RoundTripChangesOverrideVisibility()
    ensures var o := Obj(map[], map["greet" := Entry(Impl(Native(1), [Req]), Protected)], false);
            var s := NewSpy(0, 0, Sym("greet"));
            var h := Hook(s, o, HookOptions(false, None));
            h.Success? && Unhook(h.value.spy, h.value.obj).Success? &&
            Unhook(h.value.spy, h.value.obj).value.obj.singleton["greet"].visibility == Public &&
            Unhook(h.value.spy, h.value.obj).value.obj != o
    ensures var o := Obj(map["greet" := Entry(Impl(Native(2), [Req]), Protected)],
                         map["greet" := Entry(Impl(Native(1), [Req]), Public)], false);
            var s := NewSpy(0, 0, Sym("greet"));
            var h := Hook(s, o, HookOptions(false, None));
            h.Success? && h.value.obj.singleton["greet"].visibility == Protected &&
            Unhook(h.value.spy, h.value.obj).Success? &&
            Unhook(h.value.spy, h.value.obj).value.obj.singleton["greet"].visibility == Protected &&
            Unhook(h.value.spy, h.value.obj).value.obj != o
  {
    var s := NewSpy(0, 0, Sym("greet"));
    var o1 := Obj(map[], map["greet" := Entry(Impl(Native(1), [Req]), Protected)], false);
    assert RestoredVisibility(s, o1) == Public;
    RoundTripRestoresOverride(s, o1, HookOptions(false, None));
    var o2 := Obj(map["greet" := Entry(Impl(Native(2), [Req]), Protected)],
                  map["greet" := Entry(Impl(Native(1), [Req]), Public)], false);
    assert Observed(o2, s.name) == Some(Protected);
    assert RestoredVisibility(s, o2) == Protected;
    RoundTripRestoresOverride(s, o2, HookOptions(false, None));
  }

  /** Hook then unhook as evidently intended: whatever singleton method the target
      had, and whatever the options, the target comes back exactly as it was and the
      spy keeps its log. */
  lemma RoundTripRestoresEverything(s: Spy, o: Obj, opts: HookOptions)
    requires Coherent(s, o) && !s.hooked
    requires HookSaving(s, o, opts).Success?
    ensures var g := HookSaving(s, o, opts).value;
            var r := UnhookRestoring(g.hooking.spy, g.displaced, g.hooking.obj);
            r.Success? && r.value.obj == o && !r.value.spy.hooked && r.value.spy.calls == s.calls
  {
    var id := s.name.id;
    var h := Hook(s, o, opts).value;
    HookKeepsCoherent(s, o, opts);
    var t := h.spy.(removedSingleton := false);
    assert Coherent(t, h.obj);
    UnhookKeepsCoherent(t, h.obj);
    var o1 := h.obj.(singleton := h.obj.singleton - {id});
    var s1 := Memoise(t, o1);
    if s1.memoVisibility.Some? {
      assert ClassDefines(o1, id, s1.memoVisibility.value);
      assert Export(o1, s.name, s1.memoVisibility.value) == Success(o1);
    }
    assert Unhook(t, h.obj).value.obj == o1;
    if id in o.singleton {
      assert o1.singleton[id := o.singleton[id]] == o.singleton;
    } else {
      assert o1.singleton == o.singleton;
    }
  }

  /** Hook then unhook, when the target had a singleton method of that name that
      `singleton_methods` does not list (a private one, or any one when the name is a
      String): the recorder overwrote it, and after `unhook` the singleton method is
      gone, so lookup falls through to the class. */
  lemma RoundTripLosesUnlistedOverride(s: Spy, o: Obj, opts: HookOptions)
    requires Coherent(s, o) && !s.hooked
    requires s.name.id in o.singleton && !SingletonListed(o, s.name)
    requires Hook(s, o, opts).Success?
    ensures var h := Hook(s, o, opts).value;
            Unhook(h.spy, h.obj).Success? &&
            var after := Unhook(h.spy, h.obj).value.obj;
            s.name.id !in after.singleton &&
            after.singleton == o.singleton - {s.name.id} &&
            Lookup(after, s.name.id) == (if s.name.id in o.cls then Some(o.cls[s.name.id]) else None)
  {
    var id := s.name.id;
    var h := Hook(s, o, opts).value;
    HookKeepsCoherent(s, o, opts);
    UnhookKeepsCoherent(h.spy, h.obj);
    assert !h.spy.removedSingleton;
    var o1 := h.obj.(singleton := h.obj.singleton - {id});
    var s1 := Memoise(h.spy, o1);
    if s1.memoVisibility.Some? {
      assert ClassDefines(o1, id, s1.memoVisibility.value);
      assert Export(o1, s.name, s1.memoVisibility.value) == Success(o1);
    }
  }

  /** A String name never removes a singleton override: the same method hooked by
      Symbol is put back on unhook, by String it is lost. The intended pair puts it
      back for the String too. */
  lemma StringNameLosesOverride()
    ensures var o := Obj(map[], map["greet" := Entry(Impl(Native(1), [Req]), Public)], false);
            var bySym := Hook(NewSpy(0, 0, Sym("greet")), o, HookOptions(false, None));
            var byStr := Hook(NewSpy(0, 0, Str("greet")), o, HookOptions(false, None));
            bySym.Success? && byStr.Success? &&
            Unhook(bySym.value.spy, bySym.value.obj).Success? &&
            Unhook(byStr.value.spy, byStr.value.obj).Success? &&
            "greet" in Unhook(bySym.value.spy, bySym.value.obj).value.obj.singleton &&
            "greet" !in Unhook(byStr.value.spy, byStr.value.obj).value.obj.singleton
    ensures var o := Obj(map[], map["greet" := Entry(Impl(Native(1), [Req]), Public)], false);
            var g := HookSaving(NewSpy(0, 0, Str("greet")), o, HookOptions(false, None));
            g.Success? &&
            UnhookRestoring(g.value.hooking.spy, g.value.displaced, g.value.hooking.obj) ==
              Success(Effect(UnhookRestoring(g.value.hooking.spy, g.value.displaced, g.value.hooking.obj).value.spy, o))
  {
    var o := Obj(map[], map["greet" := Entry(Impl(Native(1), [Req]), Public)], false);
    assert SingletonListed(o, Sym("greet"));
    assert !SingletonListed(o, Str("greet"));
    RoundTripRestoresOverride(NewSpy(0, 0, Sym("greet")), o, HookOptions(false, None));
    RoundTripLosesUnlistedOverride(NewSpy(0, 0, Str("greet")), o, HookOptions(false, None));
    RoundTripRestoresEverything(NewSpy(0, 0, Str("greet")), o, HookOptions(false, None));
  }

  /** A forced hook (what `stub` asks for) on a public singleton method the class
      does not define captures nothing, so `unhook` loses the method. The intended
      pair puts it back. */
  lemma ForcedHookLosesOverride()
    ensures var o := Obj(map[], map["greet" := Entry(Impl(Native(1), [Req]), Public)], false);
            var h := Hook(NewSpy(0, 0, Sym("greet")), o, HookOptions(true, None));
            h.Success? && SingletonListed(o, Sym("greet")) &&
            Unhook(h.value.spy, h.value.obj).Success? &&
            "greet" !in Unhook(h.value.spy, h.value.obj).value.obj.singleton
    ensures var o := Obj(map[], map["greet" := Entry(Impl(Native(1), [Req]), Public)], false);
            var g := HookSaving(NewSpy(0, 0, Sym("greet")), o, HookOptions(true, None));
            g.Success? &&
            UnhookRestoring(g.value.hooking.spy, g.value.displaced, g.value.hooking.obj) ==
              Success(Effect(UnhookRestoring(g.value.hooking.spy, g.value.displaced, g.value.hooking.obj).value.spy, o))
  {
    var o := Obj(map[], map["greet" := Entry(Impl(Native(1), [Req]), Public)], false);
    var s := NewSpy(0, 0, Sym("greet"));
    assert Observed(o, s.name).None?;
    var h := Hook(s, o, HookOptions(true, None)).value;
    assert !h.spy.removedSingleton && h.spy.memoVisibility.None?;
    var o1 := h.obj.(singleton := h.obj.singleton - {"greet"});
    assert Observed(o1, s.name).None?;
    RoundTripRestoresEverything(s, o, HookOptions(true, None));
  }


  /** Queries after one successful `record`: the spy has been called, and with
      exactly these arguments. */
  lemma RecordedCallIsVisible(s: Spy, receiver: Value, args: seq<Value>, block: Option<BlockRef>, run: Invoker)
    requires Record(s, receiver, args, block, run).Success?
    ensures var t := Record(s, receiver, args, block, run).value.spy;
            HasBeenCalled(t) && HasBeenCalledWith(t, args) && |t.calls| == |s.calls| + 1
  {
    var t := Record(s, receiver, args, block, run).value.spy;
    assert t.calls[|s.calls|].args == args;
  }

  /** A run of intercepted calls from one receiver without blocks, in order; the
      first refused call stops it. */
  function RecordAll(s: Spy, receiver: Value, argLists: seq<seq<Value>>, run: Invoker): Result<Spy>
    decreases |argLists|
  {
    if argLists == [] then Success(s)
    else match Record(s, receiver, argLists[0], None, run)
      case Failure(e) => Failure(e)
      case Success(rec) => RecordAll(rec.spy, receiver, argLists[1..], run)
  }

  /** N calls whose argument counts all pass the arity check leave N new log entries,
      in call order after the old ones, and each argument list is found by
      `has_been_called_with?`. */
  lemma {:induction false} RecordAllLogsInOrder(s: Spy, receiver: Value, argLists: seq<seq<Value>>, run: Invoker)
    requires forall k :: 0 <= k < |argLists| ==> CheckArity(ArityOf(s.original), |argLists[k]|).Success?
    ensures RecordAll(s, receiver, argLists, run).Success?
    ensures var t := RecordAll(s, receiver, argLists, run).value;
            |t.calls| == |s.calls| + |argLists| &&
            t.calls[..|s.calls|] == s.calls &&
            (forall k :: 0 <= k < |argLists| ==> t.calls[|s.calls| + k] == CallLog(receiver, argLists[k], None)) &&
            (forall k :: 0 <= k < |argLists| ==> HasBeenCalledWith(t, argLists[k])) &&
            t.original == s.original && t.plan == s.plan && t.hooked == s.hooked
    decreases |argLists|
  {
    if argLists != [] {
      var rec := Record(s, receiver, argLists[0], None, run);
      assert rec.Success?;
      var s1 := rec.value.spy;
      RecordAllLogsInOrder(s1, receiver, argLists[1..], run);
      var t := RecordAll(s1, receiver, argLists[1..], run).value;
      assert t.calls[..|s1.calls|] == s1.calls;
      forall k | 0 <= k < |argLists|
        ensures t.calls[|s.calls| + k] == CallLog(receiver, argLists[k], None)
      {
        if k == 0 {
          assert t.calls[|s.calls|] == s1.calls[|s.calls|];
        } else {
          assert argLists[k] == argLists[1..][k - 1];
        }
      }
      forall k | 0 <= k < |argLists|
        ensures HasBeenCalledWith(t, argLists[k])
      {
        assert t.calls[|s.calls| + k].args == argLists[k];
      }
      assert t.calls[..|s.calls|] == s1.calls[..|s.calls|];
    }
  }

  /** After `and_return(v)` without a block, every call that passes the arity check
      answers `v`, whatever its arguments and block. */
  lemma ConstantPlanIgnoresArguments(s: Spy, v: Value, receiver: Value, args: seq<Value>,
                                     block: Option<BlockRef>, run: Invoker)
    requires CheckArity(ArityOf(s.original), |args|).Success?
    ensures AndReturn(s, v, None).Success?
    ensures Record(AndReturn(s, v, None).value, receiver, args, block, run).Success?
    ensures Record(AndReturn(s, v, None).value, receiver, args, block, run).value.result == v
  {
  }

  /** Setting a plan twice keeps only the second; whether the second is refused
      does not depend on the first. */
  lemma LastPlanWins(s: Spy, v1: Value, b1: Option<BlockRef>, v2: Value, b2: Option<BlockRef>)
    requires AndReturn(s, v1, b1).Success?
    ensures AndReturn(AndReturn(s, v1, b1).value, v2, b2).Success? ==>
              AndReturn(AndReturn(s, v1, b1).value, v2, b2).value.plan == AndReturn(s, v2, b2).value.plan
    ensures AndReturn(AndReturn(s, v1, b1).value, v2, b2).Failure? <==> AndReturn(s, v2, b2).Failure?
  {
  }

  /** `and_call_through` right after a hook that captured the original succeeds, and
      the recorded call is handed to that original; after `unhook` it is refused. */
  lemma CallThroughFollowsCapture(s: Spy, o: Obj, opts: HookOptions, receiver: Value,
                                  args: seq<Value>, block: Option<BlockRef>, run: Invoker)
    requires Hook(s, o, opts).Success? && MustCapture(s, o, opts)
    requires CheckArity(ArityOf(Some(Lookup(o, s.name.id).value.impl)), |args|).Success?
    ensures var t := Hook(s, o, opts).value.spy;
            AndCallThrough(t).Success? &&
            Record(AndCallThrough(t).value, receiver, args, block, run).Success? &&
            Record(AndCallThrough(t).value, receiver, args, block, run).value.result ==
              run(CallMethod(Lookup(o, s.name.id).value.impl), args, block)
    ensures var h := Hook(s, o, opts).value;
            Unhook(h.spy, h.obj).Success? ==> AndCallThrough(Unhook(h.spy, h.obj).value.spy).Failure?
  {
  }

  /** `reset!` empties the log and marks the spy unhooked, whatever its state; the
      plan stays. */
  lemma ResetForgetsCalls(s: Spy, args: seq<Value>)
    ensures !HasBeenCalled(Reset(s)) && !HasBeenCalledWith(Reset(s), args)
    ensures !Reset(s).hooked && Reset(s).plan == s.plan
  {
  }

  /** A spy with nothing memoised hooking, forced or not and with no visibility
      requested, a method its target has only in its class: the recorder takes the
      class's visibility, whatever that is. */
  lemma FreshHookTakesClassVisibility(s: Spy, o: Obj, force: bool)
    requires !s.hooked && s.memoVisibility.None?
    requires s.name.id in o.cls && s.name.id !in o.singleton
    ensures Hook(s, o, HookOptions(force, None)).Success?
    ensures var h := Hook(s, o, HookOptions(force, None)).value;
            h.obj.singleton[s.name.id].visibility == o.cls[s.name.id].visibility &&
            h.opts.visibility == Some(o.cls[s.name.id].visibility)
  {
    var id := s.name.id;
    var o2 := DefineSingleton(o, id, RecorderImpl(s.id));
    if Observed(o, s.name).None? {
      assert o.cls[id].visibility == Protected;
      assert Observed(o2, s.name) == Some(Protected);
    }
  }

}

=== FILE: values.dfy ===
/** Values shared by every part of the model: identities, opaque Ruby values,
    method names, visibilities, parameter kinds, method implementations, and the
    errors the library raises. */
module Values {

  /** Identity of a target object (Ruby's `object_id`). */
  type ObjId = nat

  /** Identity of a spy; in a `Registry.World` it is the spy's index in the heap. */
  type SpyId = nat

  datatype Option<+T> = None | Some(value: T)

  /** An opaque Ruby value; `Nil` is distinguished because `and_return` treats it specially. */
  datatype Value = Nil | Val(id: nat)

  /** An opaque block or proc passed to a call or to `and_return`. */
  datatype BlockRef = BlockRef(id: nat)

  /** A method name as the caller gave it: a Symbol or a String. Both reach the same
      method-table entry (keyed by `id`), but they are not equal to each other. */
  datatype Name = Sym(id: string) | Str(id: string)

  datatype Visibility = Public | Protected | Private

  /** The kinds `Method#parameters` reports. */
  datatype ParamKind = Req | Opt | Rest | KeyReq | Key | KeyRest | NoKey | BlockParam

  /** What a method-table entry runs: some code of the program, or the closure a spy
      installs, which forwards every call to that spy's `record`. */
  datatype Body = Native(code: nat) | Recorder(spy: SpyId)

  /** A method implementation together with its declared parameter shape. */
  datatype Impl = Impl(body: Body, params: seq<ParamKind>)

  /** The closure a spy defines on its target: `do |*args, &block| ... end`. */
  function RecorderImpl(spy: SpyId): Impl
  {
    Impl(Recorder(spy), [Rest, BlockParam])
  }

  /** The exceptions the library raises, one constructor per raise site kind. */
  datatype Error =
    | AlreadyHooked(name: Name)              // RuntimeError from `hook`
    | NotHooked(name: Name)                  // RuntimeError from `unhook`
    | UndefinedMethod(name: Name)            // NameError from `method`, `remove_method` or a visibility change
    | NotAMethod(name: Name)                 // TypeError from `define_singleton_method(name, nil)`
    | ValueAndBlock                          // ArgumentError from `and_return`
    | NoOriginal                             // RuntimeError from `and_call_through`
    | TooFewArguments(given: nat, min: nat)  // ArgumentError from `check_arity!`
    | TooManyArguments(given: nat, max: nat) // ArgumentError from `check_arity!`
    | InvalidNameClass                       // ArgumentError from `create_and_hook_spy`

  datatype Result<+T> = Success(value: T) | Failure(error: Error)
}
